=== FILE: README.md ===
# linkbox in Dafny

linkbox is a bookmark manager. Signed-in users keep bookmarks that have a URL, a
title, an optional memo and tags. The app enriches bookmarks with the page's Open
Graph (OGP) metadata, can publish a tag under a random share id, and lets
browser extensions add bookmarks with API keys. This project models the logic
under the screens as pure functions over immutable data, and proves properties
of it:

- **OGP extraction.** Two extractors exist:
  - the library extractor `getOgpInfo` takes the first match per key, falls back
    from `property=` to `name=`, and treats empty content as absent;
  - the inline extractor in the `/api/ogp` route takes the last non-empty
    `og:*` property.

  Pages are already-parsed documents: a sequence of `<meta>` records
  `(property?, name?, content?)` plus the `<title>` text. The model proves each
  policy, gives two pages on which the extractors disagree, and proves they
  agree on "canonical" pages: for each of the five keys at most one `property=`
  element, always with non-empty content, and no `name=` element, and no element
  with `property="description"`.
- **OGP fetch outcomes.** The route's HTTP status mapping and the `fetchOgp`
  action's error mapping are functions of the caller, the URL and a network
  outcome (`Net.NetOutcome`): a response with status, status text and parsed
  body, or a thrown error with its name. A non-ok upstream status is passed on
  only when the Fetch standard's `Response` constructor accepts it
  (`Net.CanRespondWith`: 200-599 and not a null-body status). Otherwise building
  the reply throws inside the handler's `try`.
- **Text and validation.**
  - `decodeHtmlEntities` with its fixed replacement order;
  - the `BookmarkFormSchema` validator, as a partial parser from JSON values to
    form data;
  - tag-chip editing in the bookmark form.
- **Store operations.** The Convex tables are in-memory sequences in insertion
  order (`Store.Db`):
  - every query and mutation of bookmarks, users, shared tags and API keys;
  - the API-key protected HTTP endpoints `POST /api/bookmarks` and
    `GET /api/tags`.

  Ownership checks, ids that stay unique (`Store.Wf`), one entry per
  (user, tag) in the share table, and read-after-write lemmas are proved.
- **Display derivations.** The bookmark card's choice between OGP data and the
  stored bookmark, and the sidebar's tag list.

The outside world comes in as parameters:

- the identity is `Option<Identity>`;
- the fetch is a `NetOutcome`;
- SHA-256 is an uninterpreted `sha: string -> string`;
- URL syntax is an uninterpreted `isUrl: string -> bool`;
- `decodeURIComponent` is `decodeUri: string -> Option<string>`, with None for a
  `URIError`;
- `toLowerCase` is `lower: string -> string`;
- `nanoid` outputs are arguments constrained only by alphabet and length
  (`Tags.IsShareId`, `ApiKeys.IsSecureId`).

Thrown mutations are `Result.Err` values. Strings are sequences of characters,
and JavaScript's default `sort` is lexicographic order on them (`Ordering.Lt`).

Module layout, following the source:

| file | module | source |
|---|---|---|
| `options.dfy`, `seqs.dfy`, `js_text.dfy`, `ordering.dfy` | shared helpers | JavaScript built-ins |
| `ogp.dfy` | `Ogp` | `lib/ogp.ts` |
| `net.dfy` | `Net` | the fetch outcome |
| `ogp_route.dfy` | `OgpRoute` | `app/api/ogp/route.ts` |
| `ogp_action.dfy` | `OgpAction` | `convex/ogp.ts` |
| `entities.dfy` | `Entities` | `convex/lib/utils.ts` |
| `schema.dfy` | `BookmarkSchema` | `types/bookmark.ts` |
| `store.dfy` | `Store` | `convex/schema.ts` and the shared look-ups |
| `users.dfy`, `bookmarks.dfy`, `tags.dfy`, `api_keys.dfy` | `Users`, `Bookmarks`, `Tags`, `ApiKeys` | `convex/*.ts` |
| `http_api.dfy` | `HttpApi` | `convex/http.ts` |
| `bookmark_form.dfy`, `bookmark_card.dfy`, `sidebar.dfy` | `BookmarkForm`, `BookmarkCard`, `Sidebar` | `components/custom/*.tsx` |

## Model

| member | source | states |
|---|---|---|
| Ogp.GetMetaContent | lib/ogp.ts:4-12 | The content of the first `property=key` element when it is non-empty. Otherwise the content of the first `name=key` element, and absent when no such element exists. |
| Ogp.EmptyPropertyContentFallsThrough | lib/ogp.ts:9-10 | If the first `property=key` element has `content=""`, the value comes from the first `name=key` element. |
| Ogp.GetOgpInfo | lib/ogp.ts:14-27 | ogTitle is always present: the og:title value when non-empty, else the `<title>` text. ogDescription tries og:description, then `description`. Image, url and site name have no fallback beyond the `name=` variant of their own key. |
| Ogp.FirstTitleWins | lib/ogp.ts:9-18 | With several og:title elements, the first one in document order gives ogTitle when its content is non-empty. |
| OgpRoute.ApplyMetaField | app/api/ogp/route.ts:48-71 | One loop step writes a field only when the element's property is exactly that field's og: key and its content is non-empty. All other fields are left alone. |
| OgpRoute.OtherPropertiesIgnored | app/api/ogp/route.ts:53-69 | An element whose property is none of the five og: keys (for example og:type) does not change the record. |
| OgpRoute.ScanLastWins | app/api/ogp/route.ts:48-71 | After the loop, each field holds the content of the last element that sets it, or is absent. This is proved against an independent last-match definition. |
| OgpRoute.RouteExtract | app/api/ogp/route.ts:43-79 | ogTitle is always present: the last og:title or the `<title>` text. ogDescription is the last og:description or `meta[name=description]` content, and may be absent. Image, url and site name use the last og: value only. |
| OgpRoute.ExtractorsDisagree | app/api/ogp/route.ts:48-71 | Two og:title elements "A" then "B": the library extractor yields "A" and the route yields "B". |
| OgpRoute.NameVariantOnlyInGetOgpInfo | app/api/ogp/route.ts:48 | A `name="og:image"` element gives the library extractor an image, but not the route, which only reads `property^="og:"`. |
| OgpRoute.KeyAgrees | app/api/ogp/route.ts:48-71 | For a key with one non-empty `property=` element and no `name=` duplicate, the first-match lookup equals the last-match scan. |
| OgpRoute.ExtractorsAgreeOnCanonical | app/api/ogp/route.ts:43-79 | On canonical pages the two extractors return equal records. |
| OgpRoute.DescriptionIsNameOnly | app/api/ogp/route.ts:77-79 | Without a `property="description"` element, the library's `description` lookup equals the route's `meta[name=description]` fallback. |
| OgpRoute.Get | app/api/ogp/route.ts:11-95 | A missing or empty `url` gives 400, and a URL that does not parse gives 400. Success holds exactly when the URL is valid and the response is ok, and then the body is the route's extraction. A non-ok response passes its status through when a response may carry it, and gives 500 when it may not (304, or above 599). A thrown TimeoutError or AbortError gives 504 (corrected, see Findings), and any other thrown error gives 500. |
| OgpRoute.GetAsWritten | app/api/ogp/route.ts:11-95 | The route as written answers a valid URL whose fetch threw TimeoutError with 500. On every other input it answers as `Get`. |
| OgpRoute.BadUrlNeverFetches | app/api/ogp/route.ts:15-26 | With a missing or invalid URL the reply is 400 and does not depend on the network outcome. |
| OgpRoute.GetStatuses | app/api/ogp/route.ts:33-94 | The reply status is 200, 400, 500, 504 or the upstream status of a non-ok response, and always one a response may carry. |
| OgpRoute.ThrownReplyAsWritten | app/api/ogp/route.ts:82-94 | As written: 504 exactly when the error is named AbortError, otherwise 500. |
| OgpRoute.ThrownReply | app/api/ogp/route.ts:82-94 | Corrected: 504 (timed out) exactly for AbortError or TimeoutError, otherwise 500 (server error). |
| OgpRoute.TimeoutErrorMisreported | app/api/ogp/route.ts:28-94 | The error of `AbortSignal.timeout` (TimeoutError) gets 500 as written and 504 when corrected. |
| OgpRoute.ThrownRepliesDifferOnlyOnTimeout | app/api/ogp/route.ts:84 | The two mappings differ on exactly one error name: TimeoutError. |
| OgpAction.FetchOgp | convex/ogp.ts:6-48 | Not authenticated is checked first. Invalid URL format follows when `decodeURIComponent` throws or `new URL` rejects the decoded URL. Success holds exactly for a valid URL with an ok response, and returns `getOgpInfo` of the body. "Timed out" holds exactly for a thrown TimeoutError or AbortError. The server error holds exactly for a non-ok response or any other thrown error. |
| OgpAction.FetchedHasTitle | convex/ogp.ts:33-36 | A successful fetch always carries a title: the `og:title` content or the page's `<title>` text. |
| OgpAction.UpstreamStatusHidden | convex/ogp.ts:29-31 | Non-ok responses with different statuses and status texts give the same result, the generic server error. |
| Entities.DecodeHtmlEntities | convex/lib/utils.ts:30-40 | The output is never longer than the input. A string without '&' is returned unchanged. |
| Entities.DecodeInvertsEscape | convex/lib/utils.ts:30-40 | Decoding inverts an independent encoder of the eight characters, for text without '&'. |
| Entities.AmpersandFirstDecodesTwice | convex/lib/utils.ts:32-33 | Because &amp; is replaced first, "&amp;lt;" (the escaped form of "&lt;") decodes to "<". |
| Entities.NotIdempotent | convex/lib/utils.ts:32 | "&amp;amp;" decodes to "&amp;", and a second decoding gives "&". |
| Entities.LaterStagesKeepAmp | convex/lib/utils.ts:33-39 | None of the seven later replacements touches "&amp;". |
| BookmarkSchema.Parse | types/bookmark.ts:19-38 | An accepted payload is valid and is the JSON form of its result: URL predicate, title of 1-200 characters, memo null or at most 1000 characters, at most 10 tags of 1-50 characters. An absent memo and a null tag list are rejected. |
| BookmarkSchema.ParseTagItems | types/bookmark.ts:29-37 | A tag array is accepted exactly when every item is a string of 1 to 50 characters. |
| BookmarkSchema.ParseEmbed | types/bookmark.ts:19-38 | Every valid form datum is accepted in its JSON form and read back unchanged. |
| BookmarkSchema.ParseExact | types/bookmark.ts:19-38 | The schema accepts a payload and yields `d` exactly when the payload is the JSON form of `d` and `d` is valid. |
| Store.FindUser | convex/users.ts:18-25 | The first user whose tokenIdentifier equals the subject, or none exactly when no user has it. |
| Store.Caller | convex/bookmarks.ts:58-73 | Not authenticated without an identity. User not found when no row has the identity's subject. Otherwise the caller's row. |
| Users.GetCurrentUser | convex/users.ts:9-33 | Null when unauthenticated. Otherwise the user whose tokenIdentifier is the subject, or null exactly when there is none. |
| Users.CreateConvexUser | convex/users.ts:39-58 | Exactly one user is appended with tokenIdentifier = clerkUserId and the given optional fields, under a fresh id. The other tables are unchanged and ids stay unique. |
| Users.CreatedUserIsFound | convex/users.ts:39-58 | After creating a user for an unused subject, looking the subject up finds the new row. |
| Users.UpdateUserProfile | convex/users.ts:63-93 | Throws when unauthenticated or the user is missing, and succeeds exactly when the caller has a row. Then the caller's name, email and picture take the supplied values, absent ones included. Ids and tokenIdentifiers are kept, and every other row and table is unchanged. |
| Users.UpdateThenRead | convex/users.ts:87-91 | After an update, the current user is the old row with the three fields replaced. |
| Users.EnsureUser | convex/bookmarks.ts:156-178 | The caller's row afterwards: the existing one, or a new row holding the identity's non-empty email, name and picture. Only the users table changes, and ids stay unique. |
| Bookmarks.GetBookmarks | convex/bookmarks.ts:16-50 | Null exactly when unauthenticated, and empty without a user row. Otherwise exactly the caller's bookmarks, newest first: reversed, the listing is the caller's bookmarks in insertion order, each once. |
| Bookmarks.NewestFirst | convex/bookmarks.ts:37-41 | The caller's bookmarks, and its reverse is the insertion-order owned subsequence. |
| Bookmarks.GetBookmark | convex/bookmarks.ts:55-90 | Null when unauthenticated, and throws without a user row. With unique ids, it returns a bookmark exactly when one with that id belongs to the caller, and that is the bookmark returned. |
| Bookmarks.GetFilteredBookmarks | convex/bookmarks.ts:92-137 | Exactly the caller's bookmarks that carry the tag, or all of them when the tag is absent or empty. |
| Bookmarks.FilteredIsSubsequence | convex/bookmarks.ts:114-135 | The filtered list is the plain listing filtered by tag, in the same order, and it is the plain listing for an empty tag. |
| Bookmarks.InsertBookmark | convex/bookmarks.ts:180-187 | Appends one row, title, memo and tags entity-decoded, under the fresh id `nextId`. Ids stay unique. |
| Bookmarks.CreateBookmark | convex/bookmarks.ts:142-189 | Throws when unauthenticated, and otherwise succeeds. An existing caller row is reused and the users table is unchanged. A missing one is appended, holding the identity's non-empty fields. Appends the decoded bookmark owned by the caller and leaves API keys and shares alone. |
| Bookmarks.CreateThenGet | convex/bookmarks.ts:142-189 | The created bookmark is read back by id as stored. |
| Bookmarks.UpdateBookmark | convex/bookmarks.ts:194-232 | Throws when signed out or without a user row. With unique ids, succeeds exactly when the bookmark exists and belongs to the caller, and otherwise throws "not permitted". It replaces url, title, memo and tags of that row, keeping its id and userId. Every other row and table is unchanged. |
| Bookmarks.UpdateThenGet | convex/bookmarks.ts:194-232 | After an update the bookmark is read back with the new fields. |
| Bookmarks.DeleteBookmark | convex/bookmarks.ts:237-264 | Throws when signed out or without a user row. With unique ids, succeeds exactly when the bookmark exists and belongs to the caller, and otherwise throws "not permitted". Removes exactly the rows with that id, and nothing else changes. |
| Bookmarks.DeleteThenGet | convex/bookmarks.ts:237-264 | A deleted bookmark is no longer found. |
| Bookmarks.CreateBookmarkByApi | convex/bookmarks.ts:270-288 | Appends one decoded bookmark for the given user under a fresh id, and nothing else changes. |
| Bookmarks.AllTags | convex/bookmarks.ts:306-310 | A tag is in the flattened list exactly when some bookmark carries it. |
| Bookmarks.GetAllUniqueTagsForUser | convex/bookmarks.ts:295-315 | Strictly sorted, hence duplicate-free. Its elements are exactly the tags on that user's bookmarks. |
| Bookmarks.UniqueTagsCanonical | convex/bookmarks.ts:313 | Any strictly sorted list of exactly those tags is that result. |
| Ordering.SortedSet | convex/bookmarks.ts:313 | `Array.from(set).sort()` gives a strictly ascending list with the same elements. |
| Ordering.StrictlySortedUnique | convex/tags.ts:183 | Two strictly sorted lists with the same elements are equal. |
| Tags.GetMySharedTags | convex/tags.ts:8-26 | Empty when signed out or without a user row. Otherwise exactly the caller's share entries. |
| Tags.ShareTag | convex/tags.ts:28-65 | Throws when unauthenticated or the user is missing. An existing (user, tag) entry returns its shareId, inserts nothing, and sets isPublic. Otherwise one public entry with the new 12-character id is appended. Nothing else changes, and unique ids and one entry per (user, tag) are preserved. |
| Tags.UnshareTag | convex/tags.ts:67-92 | Throws when unauthenticated or the user is missing. Removes the (user, tag) entry if one exists, else changes nothing. The other entries and tables are unchanged. |
| Tags.IsTagShared | convex/tags.ts:94-117 | True exactly when the caller exists and has an entry for the tag, whatever isPublic says. |
| Tags.ShareThenShared | convex/tags.ts:28-65 | After sharing, the tag is shared. |
| Tags.ShareThenListed | convex/tags.ts:8-65 | After sharing, the caller's listing holds a public entry for the tag under the returned share id. |
| Tags.UnshareThenNotShared | convex/tags.ts:67-92 | With one entry per (user, tag), after unsharing the tag is not shared. |
| Tags.ShareIdempotent | convex/tags.ts:42-54 | Sharing again changes nothing and returns the same id, whatever new id is offered. |
| Tags.GetPublicBookmarksByShareId | convex/tags.ts:119-155 | Null when no entry has the id, or when the first such entry is not public. Otherwise it returns that entry's tag and exactly the owner's bookmarks carrying the tag. The owner name is absent when no user row has the owner's id, and otherwise, with unique ids, it is that row's name. |
| Tags.PublicShareIsOwnerView | convex/tags.ts:119-155 | For a public share with a non-empty tag, the public list reversed is exactly the owner's own filtered view of that tag (`getFilteredBookmarks`, newest first). So it holds each bookmark once, in insertion order. |
| Tags.NewShareIsPublic | convex/tags.ts:56-63 | A first share under an unused id makes the tag reachable publicly by that id. |
| Tags.GetMyAllTags | convex/tags.ts:157-185 | Empty without a caller. Otherwise strictly sorted, with elements exactly the tags on the caller's bookmarks. |
| Tags.MyTagsAreUniqueTags | convex/tags.ts:157-185 | Equals the HTTP API's tag list for the same user. |
| ApiKeys.RawApiKey | convex/apiKeys.ts:9-15 | The key is "sk_" followed by the 32 alphanumeric characters, 35 in total. |
| ApiKeys.RawApiKeyInjective | convex/apiKeys.ts:89 | Two raw keys are equal exactly when their random parts are. |
| ApiKeys.GetApiKeys | convex/apiKeys.ts:20-55 | Null exactly when unauthenticated, and empty without a user row. Otherwise exactly the caller's keys, newest first: reversed, the listing is the caller's keys in insertion order, each once. |
| ApiKeys.GenerateApiKey | convex/apiKeys.ts:60-105 | Throws when unauthenticated. Reuses an existing caller row, leaving users unchanged, or appends the missing one. Appends one key owned by the caller holding only sha(raw key), and returns the raw key and name. Bookmarks and shares are unchanged and ids stay unique. |
| ApiKeys.DeleteApiKey | convex/apiKeys.ts:110-137 | Throws when signed out or without a user row. With unique ids, succeeds exactly when the key exists and is the caller's, and otherwise throws "not permitted". Then removes only that key. |
| ApiKeys.GenerateThenListed | convex/apiKeys.ts:20-105 | A generated key, stored as its hash, is the first entry of the caller's listing. |
| ApiKeys.InternalValidateApiKey | convex/apiKeys.ts:143-157 | The owner of a key with that hash, or null exactly when no key has it. |
| ApiKeys.GeneratedKeyValidates | convex/apiKeys.ts:89-103 | Hashing the returned raw key resolves to the caller, when no older key had that hash. |
| ApiKeys.DeletedKeyRejected | convex/apiKeys.ts:126-135 | After deleting a key its hash no longer validates, unless another key shares it. |
| HttpApi.BearerKey | convex/http.ts:24-34 | A key exactly when the header starts with "Bearer ", and the key is the rest of the header. |
| HttpApi.Authenticate | convex/http.ts:34-46 | For a "Bearer " header: none exactly when no stored key has the hash of the presented key. A user id returned is the owner of a key with that hash. |
| HttpApi.Enrich | convex/http.ts:76-84 | On an ok fetch the title always becomes ogTitle, and the memo becomes ogDescription only when that is defined. A thrown fetch or a refused non-ok status leaves the payload unchanged. Url and tags are never touched. |
| HttpApi.NormaliseTags | convex/http.ts:87-89 | A string tag list becomes its ','-separated pieces, untrimmed. Nothing else changes. |
| HttpApi.MemoToSave | convex/http.ts:92-95 | A memo is saved, decoded, exactly when it is present and non-empty. |
| HttpApi.Submit | convex/http.ts:58-133 | For an accepted key: missing `args` gives 500, and a forwarded non-ok fetch returns the upstream status. Non-object `args` gives 400. For an object, 400 exactly when the schema rejects the enriched payload and 201 exactly when it accepts it, appending the decoded row. Nothing else changes. |
| HttpApi.PostBookmark | convex/http.ts:20-136 | Missing bearer or unknown key gives 401, and a non-JSON body gives 400. Missing `args` gives 500. A forwarded non-ok fetch returns the upstream status. Otherwise 400 exactly when the schema rejects the enriched payload and 201 exactly when it accepts it. Only a 201 changes the store, appending the validated, decoded data for the key's owner. Every status is one a response may carry. |
| HttpApi.AbsentMemoNeedsDescription | convex/http.ts:79-90 | A payload without memo is only stored when an ok fetch supplies a description. |
| HttpApi.EmptyPageTitleRejected | convex/http.ts:78-90 | An ok fetch whose page title resolves to "" fails validation (400), whatever title was sent. |
| HttpApi.ThrownFetchKeepsPayload | convex/http.ts:80-106 | After a thrown fetch a valid payload is stored as sent, with its title entity-decoded twice. |
| HttpApi.GetTags | convex/http.ts:138-184 | Missing bearer or unknown key gives 401. An accepted key always gets the list, strictly sorted, of exactly the tags of the key owner's bookmarks. |
| HttpApi.GeneratedKeyAuthenticates | convex/apiKeys.ts:89-103 | A generated key, presented as "Bearer " + key, authenticates the caller who generated it, unless an older key had the same hash. |
| HttpApi.PostedTagsListed | convex/http.ts:97-106 | After a 201, every tag of the new bookmark is in the `GET /api/tags` list for the same key. |
| BookmarkForm.HandleTagKeyDown | components/custom/BookmarkForm.tsx:82-96 | Anything but Enter, or blank input, changes nothing. A handled Enter clears the input, keeps the old tags in order, and adds the trim-lowercased input at the end exactly once unless it is present. When it is present, the tags are unchanged. |
| BookmarkForm.RemoveTag | components/custom/BookmarkForm.tsx:103-109 | An undefined field stays undefined. Otherwise every copy of the tag goes and exactly the other tags remain. |
| BookmarkForm.RemoveTagKeepsOrder | components/custom/BookmarkForm.tsx:107-108 | Removal distributes over concatenation, and a single tag stays exactly when it is not the one removed. So the remaining tags keep their order. |
| BookmarkForm.AddKeepsNoDup | components/custom/BookmarkForm.tsx:91-93 | A duplicate-free tag list stays duplicate-free. |
| BookmarkForm.AddThenRemove | components/custom/BookmarkForm.tsx:82-109 | Adding a new tag and then removing its chip restores the list. |
| BookmarkForm.RemoveAbsent | components/custom/BookmarkForm.tsx:107-108 | Removing a tag that is not there changes nothing. |
| BookmarkCard.DisplayTitle | components/custom/BookmarkCard.tsx:43 | The OGP title when non-empty, else the bookmark title, also without OGP data. |
| BookmarkCard.DisplayDescription | components/custom/BookmarkCard.tsx:44 | The OGP description when non-empty, else the memo. |
| BookmarkCard.DisplayImage | components/custom/BookmarkCard.tsx:45 | With OGP data, exactly its image. Without it, none: there is no fallback. |
| BookmarkCard.PictureIffOgImage | components/custom/BookmarkCard.tsx:45-67 | Once loaded, the card shows a picture exactly when the OGP image is non-empty, and the picture is that image. Otherwise it shows the placeholder. |
| BookmarkCard.ChooseImageSlot | components/custom/BookmarkCard.tsx:49-67 | A skeleton exactly while loading. The picture exactly when not loading and the image is non-empty, else the placeholder. |
| BookmarkCard.View | components/custom/BookmarkCard.tsx:43-107 | The description is shown exactly when truthy, and tags only when present. |
| BookmarkCard.NoOgpShowsBookmark | components/custom/BookmarkCard.tsx:43-67 | Without OGP data the card shows the stored bookmark and the placeholder. |
| BookmarkCard.TitleNeverBlank | components/custom/BookmarkCard.tsx:43 | A bookmark with a title is never shown with an empty one. |
| BookmarkCard.EmptyOgpKeepsText | components/custom/BookmarkCard.tsx:43-44 | OGP data without title or description leaves the card's text as without OGP data. |
| Sidebar.TagEntries | components/custom/app-sidebar.tsx:33-48 | Entries are strictly ascending by name, hence duplicate-free. Their names are exactly the tags of the bookmarks, and empty for an undefined result. Each links to "/bookmarks/list/" + tag. |
| Sidebar.LastTagIsFinalSegment | components/custom/app-sidebar.tsx:41 | lastTag is the part after the final '/', or the whole tag without '/'. |
| Sidebar.SidebarMatchesMyTags | components/custom/app-sidebar.tsx:33-39 | For a signed-in user the sidebar lists exactly `getMyAllTags`. |
| JsText.TrimEmptyIffBlank | components/custom/BookmarkForm.tsx:86 | `trim()` is empty exactly when the string is all white space. |
| JsText.LastSegmentIsTail | components/custom/app-sidebar.tsx:41 | `split('/').pop()` is the suffix after the last '/'. |
| JsText.JoinSplit | convex/http.ts:88 | Joining the pieces of `split(sep)` with `sep` gives back the string. |

## Left out

- HTML parsing (cheerio) is left out: documents come already parsed. Malformed-markup recovery and selector syntax are not modelled.
- The network is left out: `fetch`, `AbortSignal.timeout` and `response.text()` are the `NetOutcome` parameter. Timing and cancellation are not modelled.
- Cryptography and randomness are parameters: SHA-256 (Web Crypto) and the `nanoid` generators.
- URL syntax (`new URL`, `z.string().url()`), `decodeURIComponent` and `toLowerCase` are abstract functions.
- Lengths count Dafny characters, while JavaScript counts UTF-16 code units. Sorting compares characters, while JavaScript compares code units. The two agree on the Basic Multilingual Plane.
- Clerk is left out: the identity is an `Option<Identity>`.
- The svix webhook and user deletion (convex/http.ts:186-234) are left out.
- Convex document ids are left out: they are numbers from one shared counter. The `_id`/`id` and `userId`/`user_id` renaming and `created_at`/`_creationTime` in the returned records are omitted, and records are returned as stored.
- Convex index ordering is left out. `order('desc')` is the reverse of insertion order, and every other query returns insertion order. In particular `getMySharedTags` returns entries in table order rather than in `by_user_tag` order.
- The "user creation failed" branches after `createConvexUser` cannot be reached in the model and are left out.
- HttpApi.PostBookmark: a JSON body whose `args` is missing or null makes the catch block itself throw. This is modelled as the 500 `Crashed` reply. Non-object `args` values (strings, numbers, booleans, arrays) are one case, `NotObject`, which the schema rejects with 400. Which of them the fetch of "undefined" reaches is left to the `net` parameter.
- HttpApi.PostBookmark: the validated title, memo and tags are decoded once in the handler and once more by `createBookmarkByApi`. The model keeps that double decoding rather than correcting it.
- OgpRoute.Get: uses the corrected catch block, so a TimeoutError gets 504. The route as written answers 500 (`OgpRoute.GetAsWritten`, see Findings).
- Net.CanRespondWith covers the two status checks of the Fetch standard's `Response` constructor. The `statusText` check is left out, because the handlers pass the upstream's own text only in the body.
- HttpApi.GetTags: the 500 reply for a failing query is left out, since the model's query cannot fail.
- The SWR request cache and all pure UI are left out: pages, navigation, buttons, theming, toasts, clipboard and `env.ts`.
- The sidebar's emoji lookup (node-emoji) is left out. Only `lastTag`, the text it searches for, is modelled.
- BookmarkForm.HandleTagKeyDown: `preventDefault` and the React form state are omitted. The result is the new field value and input text.

## Findings

| source | as written | input that shows it | evidently intended | confidence | as-written member | corrected member |
|---|---|---|---|---|---|---|
| app/api/ogp/route.ts:82-94 | Only an error named `AbortError` is answered with 504. But the fetch is cancelled by `AbortSignal.timeout(5000)`, which rejects with a `TimeoutError`, so a timed-out upstream gets 500 "server error". | a thrown error named `TimeoutError` | 504 for `TimeoutError` as well, as `convex/ogp.ts:39-43` does | medium, not executed | OgpRoute.ThrownReplyAsWritten, OgpRoute.GetAsWritten, OgpRoute.TimeoutErrorMisreported | OgpRoute.ThrownReply, OgpRoute.Get |

=== FILE: api_keys.dfy ===
/** The `apiKeys` queries and mutations: listing, generating a key of the
    form "sk_" + 32 alphanumerics (stored only as its hash), deleting, and
    resolving a hashed key to its owner. */
module ApiKeys {
  import opened Options
  import opened Store
  import Users
  import Seqs

  /** The alphabet of `generateSecureId`: digits, upper- and lower-case
      ASCII letters. */
  predicate IsAlnum(c: char) {
    ('0' <= c <= '9') || ('A' <= c <= 'Z') || ('a' <= c <= 'z')
  }

  /** What `generateSecureId()` can return. */
  predicate IsSecureId(s: string) {
    |s| == 32 && forall i :: 0 <= i < |s| ==> IsAlnum(s[i])
  }

  const ApiKeyPrefix: string := "sk_"

  /** `API_KEY_PREFIX + generateSecureId()`. */
  function RawApiKey(secureId: string): (k: string)
    requires IsSecureId(secureId)
    ensures |k| == 35
    ensures k[..3] == "sk_" && k[3..] == secureId
    ensures forall i :: 3 <= i < |k| ==> IsAlnum(k[i])
  {
    ApiKeyPrefix + secureId
  }

  /** Two generated keys are equal exactly when their random parts are. */
  lemma RawApiKeyInjective(a: string, b: string)
    requires IsSecureId(a) && IsSecureId(b)
    ensures RawApiKey(a) == RawApiKey(b) <==> a == b
  {
    if RawApiKey(a) == RawApiKey(b) {
      assert a == RawApiKey(a)[3..];
    }
  }

  /** The keys of user `uid`, in insertion order. */
  function OwnedKeys(db: Db, uid: Id): (r: seq<ApiKey>)
    ensures forall k :: k in r <==> k in db.apiKeys && k.userId == uid
  {
    Seqs.Filter(db.apiKeys, (k: ApiKey) => k.userId == uid)
  }

  /** `getApiKeys`: null when signed out, empty without a user row,
      otherwise the caller's keys, newest first. */
  function GetApiKeys(db: Db, auth: Option<Identity>): (r: Option<seq<ApiKey>>)
    ensures r.None? <==> auth.None?
    ensures (auth.Some? && FindUser(db, auth.value.subject).None?) ==> r == Some([])
    ensures Caller(db, auth).Ok? ==>
              r.Some? && forall k :: k in r.value <==> k in db.apiKeys && k.userId == Caller(db, auth).value.id
    ensures Caller(db, auth).Ok? ==> r.Some? && Seqs.Reverse(r.value) == OwnedKeys(db, Caller(db, auth).value.id)
  {
    match auth
    case None => None
    case Some(_) =>
      match Caller(db, auth)
      case Err(_) => Some([])
      case Ok(user) =>
        var owned := OwnedKeys(db, user.id);
        var r := Seqs.Reverse(owned);
        assert Seqs.Reverse(r) == owned;
        Some(r)
  }

  /** What `generateApiKey` returns: the new id and the raw key, shown once. */
  datatype Generated = Generated(id: Id, apiKey: string, name: Option<string>)

  /** `generateApiKey`: throws when signed out; creates the caller's user row
      when missing; stores only `sha(rawKey)` and returns the raw key.
      `secureId` is the output of the random generator and `sha` the SHA-256
      hex digest. */
  function GenerateApiKey(db: Db, auth: Option<Identity>, name: Option<string>, secureId: string,
                          sha: string -> string): (r: Result<(Db, Generated)>)
    requires IsSecureId(secureId)
    ensures auth.None? ==> r == Err(NotAuthenticated)
    ensures auth.Some? ==> r.Ok?
    ensures r.Ok? ==>
              var (db', g) := r.value;
              var owner := FindUser(db', auth.value.subject);
              && g.apiKey == RawApiKey(secureId) && g.name == name
              && owner.Some?
              && db'.apiKeys == db.apiKeys + [ApiKey(g.id, owner.value.id, sha(g.apiKey), name)]
              && db'.bookmarks == db.bookmarks && db'.sharedTags == db.sharedTags
              && (FindUser(db, auth.value.subject).Some? ==> db'.users == db.users)
              && (FindUser(db, auth.value.subject).None? ==>
                    db'.users == db.users + [User(db.nextId, auth.value.subject, NonEmpty(auth.value.email),
                                                  NonEmpty(auth.value.name), NonEmpty(auth.value.pictureUrl))])
              && (Wf(db) ==> Wf(db') && forall k :: k in db.apiKeys ==> k.id != g.id)
  {
    match auth
    case None => Err(NotAuthenticated)
    case Some(identity) =>
      var (db1, user) := Users.EnsureUser(db, identity);
      var raw := RawApiKey(secureId);
      var id := db1.nextId;
      var key := ApiKey(id, user.id, sha(raw), name);
      var db2 := db1.(apiKeys := db1.apiKeys + [key], nextId := id + 1);
      assert Wf(db1) ==> Wf(db2) by {
        if Wf(db1) {
          KeysFreshGrow(db1.users, UserId, db1.nextId, db2.nextId);
          KeysFreshGrow(db1.bookmarks, BookmarkId, db1.nextId, db2.nextId);
          KeysFreshAppend(db1.apiKeys, ApiKeyId, db1.nextId, key);
          KeysFreshGrow(db1.sharedTags, SharedTagId, db1.nextId, db2.nextId);
        }
      }
      assert FindUser(db2, identity.subject) == FindUser(db1, identity.subject);
      Ok((db2, Generated(id, raw, name)))
  }

  /** `deleteApiKey`: throws when signed out, without a user row, or unless
      the key exists and is the caller's; then removes that key only. */
  function DeleteApiKey(db: Db, auth: Option<Identity>, id: Id): (r: Result<Db>)
    ensures auth.None? ==> r == Err(NotAuthenticated)
    ensures (auth.Some? && FindUser(db, auth.value.subject).None?) ==> r == Err(UserNotFound)
    ensures (Caller(db, auth).Ok? && forall k :: k in db.apiKeys ==> k.id != id) ==> r == Err(NotPermitted)
    ensures r.Ok? ==> exists k :: k in db.apiKeys && k.id == id && k.userId == Caller(db, auth).value.id
    ensures (Wf(db) && Caller(db, auth).Ok?) ==>
              (r.Ok? <==> exists k :: k in db.apiKeys && k.id == id && k.userId == Caller(db, auth).value.id)
    ensures (Caller(db, auth).Ok? && r.Err?) ==> r.error == NotPermitted
    ensures r.Ok? ==> forall k :: k in r.value.apiKeys <==> k in db.apiKeys && k.id != id
    ensures r.Ok? ==> r.value.(apiKeys := db.apiKeys) == db
    ensures Wf(db) && r.Ok? ==> Wf(r.value)
  {
    match Caller(db, auth)
    case Err(e) => Err(e)
    case Ok(user) =>
      match GetApiKeyDoc(db, id)
      case None => Err(NotPermitted)
      case Some(k) =>
        if k.userId != user.id then
          assert Wf(db) ==> forall c :: c in db.apiKeys && c.id == id ==> c.userId != user.id by {
            if Wf(db) {
              forall c | c in db.apiKeys && c.id == id ensures c.userId != user.id {
                KeysFreshUnique(db.apiKeys, ApiKeyId, db.nextId, k, c);
              }
            }
          }
          Err(NotPermitted)
        else
          var p := (c: ApiKey) => c.id != id;
          var db' := db.(apiKeys := Seqs.Filter(db.apiKeys, p));
          assert Wf(db) ==> Wf(db') by {
            if Wf(db) {
              KeysFreshFilter(db.apiKeys, ApiKeyId, db.nextId, p);
            }
          }
          Ok(db')
  }

  /** A generated key heads the caller's listing, which is newest first. */
  lemma GenerateThenListed(db: Db, auth: Option<Identity>, name: Option<string>, secureId: string,
                           sha: string -> string)
    requires IsSecureId(secureId)
    ensures auth.Some? ==>
              var (db', g) := GenerateApiKey(db, auth, name, secureId, sha).value;
              var listed := GetApiKeys(db', auth);
              && listed.Some? && |listed.value| > 0
              && listed.value[0] == ApiKey(g.id, FindUser(db', auth.value.subject).value.id, sha(g.apiKey), name)
  {
    if auth.Some? {
      var (db', g) := GenerateApiKey(db, auth, name, secureId, sha).value;
      var uid := FindUser(db', auth.value.subject).value.id;
      var key := ApiKey(g.id, uid, sha(g.apiKey), name);
      var p := (k: ApiKey) => k.userId == uid;
      var listed := GetApiKeys(db', auth).value;
      Seqs.FilterConcat(db.apiKeys, [key], p);
      assert [key][1..] == [];
      assert Seqs.Filter([key], p) == [key];
      var owned := OwnedKeys(db', uid);
      assert owned == Seqs.Filter(db.apiKeys, p) + [key];
      assert Seqs.Reverse(listed) == owned;
      assert listed[0] == Seqs.Reverse(listed)[|listed| - 1];
    }
  }

  /** `internalValidateApiKey`: the owner of the first key with that hash,
      or null when no key has it. */
  function InternalValidateApiKey(db: Db, hashedApiKey: string): (r: Option<Id>)
    ensures r.Some? ==> exists k :: k in db.apiKeys && k.hashedApiKey == hashedApiKey && k.userId == r.value
    ensures r.None? <==> forall k :: k in db.apiKeys ==> k.hashedApiKey != hashedApiKey
  {
    match Seqs.FirstIndex(db.apiKeys, (k: ApiKey) => k.hashedApiKey == hashedApiKey)
    case None => None
    case Some(i) => Some(db.apiKeys[i].userId)
  }

  /** A generated key authenticates its owner: hashing the returned raw key
      resolves to the caller, unless an older key already had that hash. */
  lemma GeneratedKeyValidates(db: Db, auth: Option<Identity>, name: Option<string>, secureId: string,
                              sha: string -> string)
    requires IsSecureId(secureId) && auth.Some?
    requires forall k :: k in db.apiKeys ==> k.hashedApiKey != sha(RawApiKey(secureId))
    ensures var (db', g) := GenerateApiKey(db, auth, name, secureId, sha).value;
            InternalValidateApiKey(db', sha(g.apiKey)) == Some(FindUser(db', auth.value.subject).value.id)
  {
    var (db', g) := GenerateApiKey(db, auth, name, secureId, sha).value;
    var n := |db.apiKeys|;
    assert db'.apiKeys[n].hashedApiKey == sha(g.apiKey);
    assert forall j :: 0 <= j < n ==> db'.apiKeys[j] == db.apiKeys[j];
    assert forall j :: 0 <= j < n ==> db.apiKeys[j] in db.apiKeys;
  }

  /** A deleted key stops authenticating when no other key shares its hash. */
  lemma DeletedKeyRejected(db: Db, auth: Option<Identity>, id: Id, hashedApiKey: string)
    requires DeleteApiKey(db, auth, id).Ok?
    requires forall k :: k in db.apiKeys && k.hashedApiKey == hashedApiKey ==> k.id == id
    ensures InternalValidateApiKey(DeleteApiKey(db, auth, id).value, hashedApiKey).None?
  {
  }
}

=== FILE: bookmark_card.dfy ===
/** What a bookmark card shows: Open Graph data where it has a non-empty
    value, the stored bookmark otherwise, and an image slot that is a
    skeleton while the Open Graph data loads. */
module BookmarkCard {
  import opened Options
  import opened JsText
  import opened Store
  import Ogp

  /** The image area at the top of the card. */
  datatype ImageSlot = Skeleton | Picture(src: string) | Placeholder

  /** The parts of the card that depend on the data. */
  datatype CardView = CardView(
    image: ImageSlot,
    title: string,
    description: Option<string>,   // the paragraph, when shown
    tags: seq<string>)             // the badges, when shown

  /** `ogp?.ogTitle || bookmark.title`. */
  function DisplayTitle(b: Bookmark, ogp: Option<Ogp.OgpData>): (r: string)
    ensures ogp.Some? && Truthy(ogp.value.ogTitle) ==> r == ogp.value.ogTitle.value
    ensures !(ogp.Some? && Truthy(ogp.value.ogTitle)) ==> r == b.title
  {
    match ogp
    case Some(d) => Or(d.ogTitle, Some(b.title)).value
    case None => b.title
  }

  /** `ogp?.ogDescription || bookmark.memo`. */
  function DisplayDescription(b: Bookmark, ogp: Option<Ogp.OgpData>): (r: Option<string>)
    ensures ogp.Some? && Truthy(ogp.value.ogDescription) ==> r == ogp.value.ogDescription
    ensures !(ogp.Some? && Truthy(ogp.value.ogDescription)) ==> r == b.memo
  {
    match ogp
    case Some(d) => Or(d.ogDescription, b.memo)
    case None => b.memo
  }

  /** `ogp?.ogImage`: the bookmark has no image of its own. */
  function DisplayImage(ogp: Option<Ogp.OgpData>): (r: Option<string>)
    ensures r.Some? ==> ogp.Some? && ogp.value.ogImage == r
    ensures ogp.Some? ==> r == ogp.value.ogImage
  {
    match ogp
    case Some(d) => d.ogImage
    case None => None
  }

  /** The image slot: the skeleton while loading, then the picture when the
      image is a non-empty string, the placeholder otherwise. */
  function ChooseImageSlot(loading: bool, image: Option<string>): (r: ImageSlot)
    ensures loading <==> r.Skeleton?
    ensures r.Picture? <==> !loading && Truthy(image)
    ensures r.Picture? ==> image == Some(r.src)
  {
    if loading then Skeleton
    else if Truthy(image) then Picture(image.value)
    else Placeholder
  }

  /** The card; `loading` is `isOgpLoading`, false when not given. */
  function View(b: Bookmark, ogp: Option<Ogp.OgpData>, loading: bool): (r: CardView)
    ensures r.title == DisplayTitle(b, ogp)
    ensures r.description.Some? <==> Truthy(DisplayDescription(b, ogp))
    ensures r.description.Some? ==> r.description == DisplayDescription(b, ogp)
    ensures r.tags == b.tags
    ensures r.image == ChooseImageSlot(loading, DisplayImage(ogp))
  {
    var description := DisplayDescription(b, ogp);
    CardView(
      ChooseImageSlot(loading, DisplayImage(ogp)),
      DisplayTitle(b, ogp),
      if Truthy(description) then description else None,
      if |b.tags| > 0 then b.tags else [])
  }

  /** Once loaded, the card shows a picture exactly when the Open Graph
      data has a non-empty image, and that image is the picture. */
  lemma PictureIffOgImage(b: Bookmark, ogp: Option<Ogp.OgpData>, loading: bool)
    ensures View(b, ogp, loading).image.Picture? <==> !loading && ogp.Some? && Truthy(ogp.value.ogImage)
    ensures View(b, ogp, loading).image.Picture? ==> Some(View(b, ogp, loading).image.src) == ogp.value.ogImage
    ensures !loading && !View(b, ogp, loading).image.Picture? ==> View(b, ogp, loading).image == Placeholder
  {
  }

  /** Without Open Graph data the card shows exactly the stored bookmark and
      the placeholder (once loading is over). */
  lemma NoOgpShowsBookmark(b: Bookmark)
    ensures View(b, None, false) ==
              CardView(Placeholder, b.title, if Truthy(b.memo) then b.memo else None, b.tags)
  {
  }

  /** A card never loses its title: a bookmark saved with a title (which the
      form requires) is displayed with a non-empty one. */
  lemma TitleNeverBlank(b: Bookmark, ogp: Option<Ogp.OgpData>, loading: bool)
    requires b.title != ""
    ensures View(b, ogp, loading).title != ""
  {
  }

  /** Open Graph data without a title or description does not change the
      text of the card, only, possibly, its image. */
  lemma EmptyOgpKeepsText(b: Bookmark, d: Ogp.OgpData, loading: bool)
    requires !Truthy(d.ogTitle) && !Truthy(d.ogDescription)
    ensures var v := View(b, Some(d), loading);
            var w := View(b, None, loading);
            v.title == w.title && v.description == w.description && v.tags == w.tags
  {
  }
}

=== FILE: bookmark_form.dfy ===
/** Tag-chip editing in the bookmark form: Enter in the tag input adds the
    trimmed, lower-cased text as a tag unless it is already there; a chip's
    close button removes that tag. The form field may be undefined. */
module BookmarkForm {
  import opened Options
  import opened JsText
  import Seqs

  /** The tag field and the text in the tag input box. */
  datatype TagEditor = TagEditor(tags: Option<seq<string>>, input: string)

  /** The tag a handled Enter adds; `lower` stands for `toLowerCase`. */
  function NewTag(input: string, lower: string -> string): string {
    lower(Trim(input))
  }

  /** `handleTagInputKeyDown`. */
  function HandleTagKeyDown(e: TagEditor, key: string, lower: string -> string): (r: TagEditor)
    ensures (key != "Enter" || Blank(e.input)) ==> r == e
    ensures key == "Enter" && !Blank(e.input) ==>
              && r.input == ""
              && r.tags.Some?
              && NewTag(e.input, lower) in r.tags.value
              && (forall t :: t in r.tags.value <==> t in e.tags.GetOr([]) || t == NewTag(e.input, lower))
              && |e.tags.GetOr([])| <= |r.tags.value|
              && r.tags.value[..|e.tags.GetOr([])|] == e.tags.GetOr([])
    ensures key == "Enter" && !Blank(e.input) && NewTag(e.input, lower) in e.tags.GetOr([]) ==> r.tags == e.tags
    ensures key == "Enter" && !Blank(e.input) && NewTag(e.input, lower) !in e.tags.GetOr([]) ==>
              r.tags == Some(e.tags.GetOr([]) + [NewTag(e.input, lower)])
  {
    TrimEmptyIffBlank(e.input);
    if key == "Enter" && Trim(e.input) != "" then
      var newTag := NewTag(e.input, lower);
      var current := e.tags.GetOr([]);
      if newTag !in current then TagEditor(Some(current + [newTag]), "")
      else TagEditor(e.tags, "")
    else e
  }

  /** The filter `removeTag` applies. */
  function Keeps(tagToRemove: string): string -> bool {
    (t: string) => t != tagToRemove
  }

  /** `removeTag`: every copy of the tag goes, the rest keep their order. */
  function RemoveTag(tags: Option<seq<string>>, tagToRemove: string): (r: Option<seq<string>>)
    ensures r.Some? <==> tags.Some?
    ensures r.Some? ==> tagToRemove !in r.value
    ensures r.Some? ==> forall t :: t in r.value <==> t in tags.value && t != tagToRemove
  {
    match tags
    case None => None
    case Some(ts) => Some(Seqs.Filter(ts, Keeps(tagToRemove)))
  }

  /** `filter` keeps the order of what it keeps: removing a tag from a
      concatenation removes it from each part, and a single tag stays
      exactly when it is not the one removed. Together these fix the
      result of every removal. */
  lemma {:induction false} RemoveTagKeepsOrder(a: seq<string>, b: seq<string>, x: string, tagToRemove: string)
    ensures RemoveTag(Some(a + b), tagToRemove).value
            == RemoveTag(Some(a), tagToRemove).value + RemoveTag(Some(b), tagToRemove).value
    ensures RemoveTag(Some([x]), tagToRemove) == Some(if x == tagToRemove then [] else [x])
  {
    var p := Keeps(tagToRemove);
    Seqs.FilterConcat(a, b, p);
    assert p(x) <==> x != tagToRemove;
    assert [x][0] == x && [x][1..] == [];
    assert Seqs.Filter([x], p) == if p(x) then [x] + Seqs.Filter([], p) else Seqs.Filter([], p);
    assert Seqs.Filter([], p) == [] && [x] + [] == [x];
    assert RemoveTag(Some([x]), tagToRemove) == Some(Seqs.Filter([x], p));
  }

  /** Adding through the input never creates a duplicate chip. */
  lemma AddKeepsNoDup(e: TagEditor, key: string, lower: string -> string)
    requires Seqs.NoDup(e.tags.GetOr([]))
    ensures Seqs.NoDup(HandleTagKeyDown(e, key, lower).tags.GetOr([]))
  {
    var r := HandleTagKeyDown(e, key, lower);
    var current := e.tags.GetOr([]);
    if key == "Enter" && !Blank(e.input) && NewTag(e.input, lower) !in current {
      var ts := r.tags.value;
      assert ts == current + [NewTag(e.input, lower)];
      forall i, j | 0 <= i < j < |ts| ensures ts[i] != ts[j] {
        if j == |current| {
          assert ts[i] == current[i];
        }
      }
    }
  }

  /** Removing a tag that is absent changes nothing. */
  lemma RemoveAbsent(ts: seq<string>, tagToRemove: string)
    requires tagToRemove !in ts
    ensures RemoveTag(Some(ts), tagToRemove) == Some(ts)
  {
    Seqs.FilterAll(ts, Keeps(tagToRemove));
  }

  /** Adding a new tag and then removing its chip restores the list. */
  lemma AddThenRemove(ts: seq<string>, input: string, lower: string -> string)
    requires !Blank(input) && NewTag(input, lower) !in ts
    ensures RemoveTag(HandleTagKeyDown(TagEditor(Some(ts), input), "Enter", lower).tags, NewTag(input, lower))
            == Some(ts)
  {
    var n := NewTag(input, lower);
    var p := Keeps(n);
    TrimEmptyIffBlank(input);
    assert HandleTagKeyDown(TagEditor(Some(ts), input), "Enter", lower).tags == Some(ts + [n]);
    Seqs.FilterConcat(ts, [n], p);
    assert forall x :: x in ts ==> p(x);
    Seqs.FilterAll(ts, p);
    assert Seqs.Filter([n], p) == [];
    assert Seqs.Filter(ts + [n], p) == ts;
    assert RemoveTag(Some(ts + [n]), n) == Some(Seqs.Filter(ts + [n], p));
  }
}

=== FILE: bookmarks.dfy ===
/** The `bookmarks` queries and mutations: owner-scoped listing and lookup,
    tag filtering, create/update/delete with ownership checks, the internal
    insert used by the HTTP API, and the sorted unique tag list. */
module Bookmarks {
  import opened Options
  import opened JsText
  import opened Store
  import Users
  import Seqs
  import Ordering
  import Entities

  /** The bookmarks of user `uid`, in insertion order. */
  function Owned(bs: seq<Bookmark>, uid: Id): (r: seq<Bookmark>)
    ensures forall b :: b in r <==> b in bs && b.userId == uid
  {
    Seqs.Filter(bs, (b: Bookmark) => b.userId == uid)
  }

  /** `.withIndex('by_userId', ..).order('desc').collect()`: the user's
      bookmarks, newest first. */
  function NewestFirst(db: Db, uid: Id): (r: seq<Bookmark>)
    ensures forall b :: b in r <==> b in db.bookmarks && b.userId == uid
    ensures Seqs.Reverse(r) == Owned(db.bookmarks, uid)
  {
    var owned := Owned(db.bookmarks, uid);
    var r := Seqs.Reverse(owned);
    assert Seqs.Reverse(r) == owned;
    r
  }

  /** `getBookmarks`: null when signed out, empty when the caller has no
      user row, otherwise every bookmark of the caller, newest first. */
  function GetBookmarks(db: Db, auth: Option<Identity>): (r: Option<seq<Bookmark>>)
    ensures r.None? <==> auth.None?
    ensures (auth.Some? && FindUser(db, auth.value.subject).None?) ==> r == Some([])
    ensures Caller(db, auth).Ok? ==>
              r.Some? && forall b :: b in r.value <==> b in db.bookmarks && b.userId == Caller(db, auth).value.id
    ensures Caller(db, auth).Ok? ==> r.Some? && Seqs.Reverse(r.value) == Owned(db.bookmarks, Caller(db, auth).value.id)
  {
    match auth
    case None => None
    case Some(_) =>
      match Caller(db, auth)
      case Err(_) => Some([])
      case Ok(user) => Some(NewestFirst(db, user.id))
  }

  /** `getBookmark`: null when signed out; throws when the caller has no user
      row; null when the id is missing or belongs to someone else. */
  function GetBookmark(db: Db, auth: Option<Identity>, id: Id): (r: Result<Option<Bookmark>>)
    ensures auth.None? ==> r == Ok(None)
    ensures (auth.Some? && FindUser(db, auth.value.subject).None?) ==> r == Err(UserNotFound)
    ensures (r.Ok? && r.value.Some?) ==>
              r.value.value in db.bookmarks && r.value.value.id == id
              && r.value.value.userId == Caller(db, auth).value.id
    ensures (Caller(db, auth).Ok? && forall b :: b in db.bookmarks ==> b.id != id) ==> r == Ok(None)
    ensures (Wf(db) && Caller(db, auth).Ok?) ==>
              (r.Ok? && (r.value.Some? <==>
                 exists b :: b in db.bookmarks && b.id == id && b.userId == Caller(db, auth).value.id))
  {
    match auth
    case None => Ok(None)
    case Some(_) =>
      match Caller(db, auth)
      case Err(e) => Err(e)
      case Ok(user) =>
        match GetBookmarkDoc(db, id)
        case None => Ok(None)
        case Some(b) =>
          assert Wf(db) ==> forall c :: c in db.bookmarks && c.id == id ==> c == b by {
            if Wf(db) {
              forall c | c in db.bookmarks && c.id == id ensures c == b {
                var i :| 0 <= i < |db.bookmarks| && db.bookmarks[i] == c;
                var j :| 0 <= j < |db.bookmarks| && db.bookmarks[j] == b;
                assert BookmarkId(db.bookmarks[i]) == BookmarkId(db.bookmarks[j]);
              }
            }
          }
          if b.userId != user.id then Ok(None) else Ok(Some(b))
  }

  /** `b.tags.includes(tag)`, as a named predicate so that every filter by
      tag uses the same one. */
  function Tagged(tag: string): Bookmark -> bool {
    (b: Bookmark) => tag in b.tags
  }

  /** `getFilteredBookmarks`: with a non-empty tag, the caller's bookmarks
      carrying that tag; otherwise all of them. */
  function GetFilteredBookmarks(db: Db, auth: Option<Identity>, tag: Option<string>): (r: Option<seq<Bookmark>>)
    ensures r.None? <==> auth.None?
    ensures (auth.Some? && FindUser(db, auth.value.subject).None?) ==> r == Some([])
    ensures Caller(db, auth).Ok? ==>
              r.Some? && forall b :: b in r.value <==>
                b in db.bookmarks && b.userId == Caller(db, auth).value.id && (Truthy(tag) ==> tag.value in b.tags)
  {
    match GetBookmarks(db, auth)
    case None => None
    case Some(all) =>
      if Truthy(tag) then Some(Seqs.Filter(all, Tagged(tag.value))) else Some(all)
  }

  /** Filtering keeps the newest-first order of the plain listing, and an
      absent or empty tag is no filter at all. */
  lemma FilteredIsSubsequence(db: Db, auth: Option<Identity>, tag: Option<string>)
    requires auth.Some?
    ensures Truthy(tag) ==>
              GetFilteredBookmarks(db, auth, tag).value
              == Seqs.Filter(GetBookmarks(db, auth).value, Tagged(tag.value))
    ensures !Truthy(tag) ==> GetFilteredBookmarks(db, auth, tag) == GetBookmarks(db, auth)
  {
  }

  /** `tags.map(decodeHtmlEntities)`. */
  function DecodeAll(tags: seq<string>): (r: seq<string>)
    ensures |r| == |tags|
  {
    seq(|tags|, i requires 0 <= i < |tags| => Entities.DecodeHtmlEntities(tags[i]))
  }

  /** `memo != null ? decodeHtmlEntities(memo) : memo`. */
  function DecodeMemo(memo: Option<string>): (r: Option<string>)
    ensures r.Some? <==> memo.Some?
  {
    match memo
    case None => None
    case Some(m) => Some(Entities.DecodeHtmlEntities(m))
  }

  /** The row the three inserting/patching mutations write for `userId`. */
  function Stored(id: Id, userId: Id, url: string, title: string, memo: Option<string>, tags: seq<string>): Bookmark {
    Bookmark(id, userId, url, Entities.DecodeHtmlEntities(title), DecodeMemo(memo), DecodeAll(tags))
  }

  /** Append a row with a fresh id. */
  function InsertBookmark(db: Db, userId: Id, url: string, title: string, memo: Option<string>,
                          tags: seq<string>): (r: (Db, Id))
    ensures r.0 == db.(bookmarks := db.bookmarks + [Stored(r.1, userId, url, title, memo, tags)], nextId := r.1 + 1)
    ensures r.1 == db.nextId
    ensures Wf(db) ==> Wf(r.0) && forall b :: b in db.bookmarks ==> b.id != r.1
  {
    var id := db.nextId;
    var b := Stored(id, userId, url, title, memo, tags);
    var db' := db.(bookmarks := db.bookmarks + [b], nextId := id + 1);
    assert Wf(db) ==> Wf(db') by {
      if Wf(db) {
        KeysFreshGrow(db.users, UserId, db.nextId, db'.nextId);
        KeysFreshAppend(db.bookmarks, BookmarkId, db.nextId, b);
        KeysFreshGrow(db.apiKeys, ApiKeyId, db.nextId, db'.nextId);
        KeysFreshGrow(db.sharedTags, SharedTagId, db.nextId, db'.nextId);
      }
    }
    (db', id)
  }

  /** `createBookmark`: throws when signed out; creates the caller's user
      row when missing; stores the title, memo and tags entity-decoded. */
  function CreateBookmark(db: Db, auth: Option<Identity>, url: string, title: string, memo: Option<string>,
                          tags: seq<string>): (r: Result<(Db, Id)>)
    ensures auth.None? ==> r == Err(NotAuthenticated)
    ensures auth.Some? ==> r.Ok?
    ensures r.Ok? ==>
              var (db', id) := r.value;
              var owner := FindUser(db', auth.value.subject);
              && owner.Some?
              && db'.bookmarks == db.bookmarks + [Stored(id, owner.value.id, url, title, memo, tags)]
              && db'.apiKeys == db.apiKeys && db'.sharedTags == db.sharedTags
              && (FindUser(db, auth.value.subject).Some? ==> db'.users == db.users)
              && (FindUser(db, auth.value.subject).None? ==>
                    db'.users == db.users + [User(db.nextId, auth.value.subject, NonEmpty(auth.value.email),
                                                  NonEmpty(auth.value.name), NonEmpty(auth.value.pictureUrl))])
              && (Wf(db) ==> Wf(db') && forall b :: b in db.bookmarks ==> b.id != id)
  {
    match auth
    case None => Err(NotAuthenticated)
    case Some(identity) =>
      var (db1, user) := Users.EnsureUser(db, identity);
      var (db2, id) := InsertBookmark(db1, user.id, url, title, memo, tags);
      assert FindUser(db2, identity.subject) == FindUser(db1, identity.subject);
      Ok((db2, id))
  }

  /** A created bookmark is what the caller reads back by its id. */
  lemma CreateThenGet(db: Db, auth: Option<Identity>, url: string, title: string, memo: Option<string>,
                      tags: seq<string>)
    requires Wf(db) && auth.Some?
    ensures var (db', id) := CreateBookmark(db, auth, url, title, memo, tags).value;
            GetBookmark(db', auth, id) == Ok(Some(Stored(id, Caller(db', auth).value.id, url, title, memo, tags)))
  {
    var (db', id) := CreateBookmark(db, auth, url, title, memo, tags).value;
    var b := Stored(id, Caller(db', auth).value.id, url, title, memo, tags);
    assert db'.bookmarks[|db.bookmarks|] == b;
    assert b in db'.bookmarks;
  }

  /** With unique ids, a row with id `b.id` that `uid` does not own is the
      only row with that id, so `uid` owns none. */
  lemma OnlyDocWithId(db: Db, b: Bookmark, uid: Id)
    requires b in db.bookmarks && b.userId != uid
    ensures Wf(db) ==> forall c :: c in db.bookmarks && c.id == b.id ==> c.userId != uid
  {
    if Wf(db) {
      forall c | c in db.bookmarks && c.id == b.id ensures c.userId != uid {
        KeysFreshUnique(db.bookmarks, BookmarkId, db.nextId, b, c);
      }
    }
  }

  /** `updateBookmark`: throws when signed out, when the caller has no user
      row, or when the id is missing or someone else's; otherwise replaces
      url, title, memo and tags (decoded) and keeps the owner. */
  function UpdateBookmark(db: Db, auth: Option<Identity>, id: Id, url: string, title: string,
                          memo: Option<string>, tags: seq<string>): (r: Result<Db>)
    ensures auth.None? ==> r == Err(NotAuthenticated)
    ensures (auth.Some? && FindUser(db, auth.value.subject).None?) ==> r == Err(UserNotFound)
    ensures (Caller(db, auth).Ok? && forall b :: b in db.bookmarks ==> b.id != id) ==> r == Err(NotPermitted)
    ensures r.Ok? ==>
              && |r.value.bookmarks| == |db.bookmarks|
              && (forall i :: 0 <= i < |db.bookmarks| ==>
                    if db.bookmarks[i].id == id
                    then r.value.bookmarks[i] == Stored(id, db.bookmarks[i].userId, url, title, memo, tags)
                    else r.value.bookmarks[i] == db.bookmarks[i])
              && r.value.(bookmarks := db.bookmarks) == db
    ensures r.Ok? ==> exists b :: b in db.bookmarks && b.id == id && b.userId == Caller(db, auth).value.id
    ensures (Wf(db) && Caller(db, auth).Ok?) ==>
              (r.Ok? <==> exists b :: b in db.bookmarks && b.id == id && b.userId == Caller(db, auth).value.id)
    ensures (Caller(db, auth).Ok? && r.Err?) ==> r.error == NotPermitted
    ensures Wf(db) && r.Ok? ==> Wf(r.value)
  {
    match Caller(db, auth)
    case Err(e) => Err(e)
    case Ok(user) =>
      match GetBookmarkDoc(db, id)
      case None => Err(NotPermitted)
      case Some(b) =>
        if b.userId != user.id then
          OnlyDocWithId(db, b, user.id);
          Err(NotPermitted)
        else
          var bs := seq(|db.bookmarks|, i requires 0 <= i < |db.bookmarks| =>
            if db.bookmarks[i].id == id then Stored(id, db.bookmarks[i].userId, url, title, memo, tags)
            else db.bookmarks[i]);
          var db' := db.(bookmarks := bs);
          assert Wf(db) ==> Wf(db') by {
            if Wf(db) {
              KeysFreshPointwise(db.bookmarks, bs, BookmarkId, db.nextId);
            }
          }
          Ok(db')
  }

  /** An update is read back: the bookmark has the new fields and the old
      owner. */
  lemma {:induction false} UpdateThenGet(db: Db, auth: Option<Identity>, id: Id, url: string, title: string,
                      memo: Option<string>, tags: seq<string>)
    requires Wf(db)
    requires UpdateBookmark(db, auth, id, url, title, memo, tags).Ok?
    ensures var db' := UpdateBookmark(db, auth, id, url, title, memo, tags).value;
            GetBookmark(db', auth, id) == Ok(Some(Stored(id, Caller(db, auth).value.id, url, title, memo, tags)))
  {
    var db' := UpdateBookmark(db, auth, id, url, title, memo, tags).value;
    var owner := Caller(db, auth).value.id;
    var b :| b in db.bookmarks && b.id == id && b.userId == owner;
    var i :| 0 <= i < |db.bookmarks| && db.bookmarks[i] == b;
    var stored := Stored(id, owner, url, title, memo, tags);
    assert db'.bookmarks[i] == stored;
    assert db'.users == db.users;
    assert Caller(db', auth) == Caller(db, auth);
    assert Wf(db');
    assert stored in db'.bookmarks && stored.id == id;
    assert forall c :: c in db'.bookmarks && c.id == id ==> c == stored by {
      forall c | c in db'.bookmarks && c.id == id ensures c == stored {
        KeysFreshUnique(db'.bookmarks, BookmarkId, db'.nextId, c, stored);
      }
    }
  }

  /** `deleteBookmark`: the same checks as an update, then removes the row
      with that id and nothing else. */
  function DeleteBookmark(db: Db, auth: Option<Identity>, id: Id): (r: Result<Db>)
    ensures auth.None? ==> r == Err(NotAuthenticated)
    ensures (auth.Some? && FindUser(db, auth.value.subject).None?) ==> r == Err(UserNotFound)
    ensures (Caller(db, auth).Ok? && forall b :: b in db.bookmarks ==> b.id != id) ==> r == Err(NotPermitted)
    ensures r.Ok? ==> exists b :: b in db.bookmarks && b.id == id && b.userId == Caller(db, auth).value.id
    ensures (Wf(db) && Caller(db, auth).Ok?) ==>
              (r.Ok? <==> exists b :: b in db.bookmarks && b.id == id && b.userId == Caller(db, auth).value.id)
    ensures (Caller(db, auth).Ok? && r.Err?) ==> r.error == NotPermitted
    ensures r.Ok? ==> forall b :: b in r.value.bookmarks <==> b in db.bookmarks && b.id != id
    ensures r.Ok? ==> r.value.(bookmarks := db.bookmarks) == db
    ensures Wf(db) && r.Ok? ==> Wf(r.value)
  {
    match Caller(db, auth)
    case Err(e) => Err(e)
    case Ok(user) =>
      match GetBookmarkDoc(db, id)
      case None => Err(NotPermitted)
      case Some(b) =>
        if b.userId != user.id then
          OnlyDocWithId(db, b, user.id);
          Err(NotPermitted)
        else
          var db' := db.(bookmarks := Seqs.Filter(db.bookmarks, (c: Bookmark) => c.id != id));
          assert Wf(db) ==> Wf(db') by {
            if Wf(db) {
              KeysFreshFilter(db.bookmarks, BookmarkId, db.nextId, (c: Bookmark) => c.id != id);
            }
          }
          Ok(db')
  }

  /** After a delete the caller no longer finds the bookmark. */
  lemma DeleteThenGet(db: Db, auth: Option<Identity>, id: Id)
    requires DeleteBookmark(db, auth, id).Ok?
    ensures GetBookmark(DeleteBookmark(db, auth, id).value, auth, id) == Ok(None)
  {
    var db' := DeleteBookmark(db, auth, id).value;
    assert db'.users == db.users;
  }

  /** `createBookmarkByApi`: the same decoded insert for an already
      authenticated user id, with no checks. */
  function CreateBookmarkByApi(db: Db, userId: Id, url: string, title: string, memo: Option<string>,
                               tags: seq<string>): (r: (Db, Id))
    ensures r.0.bookmarks == db.bookmarks + [Stored(r.1, userId, url, title, memo, tags)]
    ensures r.0.users == db.users && r.0.apiKeys == db.apiKeys && r.0.sharedTags == db.sharedTags
    ensures Wf(db) ==> Wf(r.0) && forall b :: b in db.bookmarks ==> b.id != r.1
  {
    InsertBookmark(db, userId, url, title, memo, tags)
  }

  /** Every tag of every bookmark, in order, repeats included. */
  function AllTags(bs: seq<Bookmark>): (r: seq<string>)
    ensures forall t :: t in r <==> exists b :: b in bs && t in b.tags
    decreases |bs|
  {
    if |bs| == 0 then []
    else
      var rest := AllTags(bs[1..]);
      assert forall b :: b in bs[1..] ==> b in bs;
      assert forall b :: b in bs ==> b == bs[0] || b in bs[1..];
      bs[0].tags + rest
  }

  /** `getAllUniqueTagsForUser`: the sorted, duplicate-free tags of the
      user's bookmarks. */
  function GetAllUniqueTagsForUser(db: Db, userId: Id): (r: seq<string>)
    ensures Ordering.StrictlySorted(r)
    ensures forall t :: t in r <==> exists b :: b in db.bookmarks && b.userId == userId && t in b.tags
  {
    Ordering.SortedSet(AllTags(Owned(db.bookmarks, userId)))
  }

  /** The tag list is the only strictly sorted list of exactly those tags. */
  lemma UniqueTagsCanonical(db: Db, userId: Id, s: seq<string>)
    requires Ordering.StrictlySorted(s)
    requires forall t :: t in s <==> exists b :: b in db.bookmarks && b.userId == userId && t in b.tags
    ensures s == GetAllUniqueTagsForUser(db, userId)
  {
    Ordering.StrictlySortedUnique(s, GetAllUniqueTagsForUser(db, userId));
  }
}

=== FILE: entities.dfy ===
/** `decodeHtmlEntities`: eight global, fixed-order textual replacements
    applied to titles, memos and tags before they are stored. */
module Entities {

  /** `s.replace(/pat/g, rep)`: every non-overlapping occurrence of `pat`,
      found scanning left to right, is replaced by `rep`. */
  function ReplaceAll(s: string, pat: string, rep: string): (r: string)
    requires |pat| > 0
    ensures |rep| <= |pat| ==> |r| <= |s|
    ensures pat[0] !in s ==> r == s
    decreases |s|
  {
    if |s| == 0 then ""
    else if pat <= s then rep + ReplaceAll(s[|pat|..], pat, rep)
    else [s[0]] + ReplaceAll(s[1..], pat, rep)
  }

  /** The eight entities, in the order they are replaced. */
  function DecodeHtmlEntities(text: string): (r: string)
    ensures |r| <= |text|
    ensures '&' !in text ==> r == text
  {
    var s1 := ReplaceAll(text, "&amp;", "&");
    var s2 := ReplaceAll(s1, "&lt;", "<");
    var s3 := ReplaceAll(s2, "&gt;", ">");
    var s4 := ReplaceAll(s3, "&quot;", "\"");
    var s5 := ReplaceAll(s4, "&#39;", "'");
    var s6 := ReplaceAll(s5, "&#x2F;", "/");
    var s7 := ReplaceAll(s6, "&#x60;", "`");
    ReplaceAll(s7, "&#x3D;", "=")
  }

  /** The characters the decoder produces. */
  const Specials: set<char> := {'&', '<', '>', '"', '\'', '/', '`', '='}

  /** The entity each special character is decoded from. */
  function Entity(c: char): (e: string)
    requires c in Specials
    ensures 4 <= |e| && e[0] == '&' && '&' !in e[1..]
    ensures EntityChar(e) == c
  {
    match c
    case '&' => "&amp;"
    case '<' => "&lt;"
    case '>' => "&gt;"
    case '"' => "&quot;"
    case '\'' => "&#39;"
    case '/' => "&#x2F;"
    case '`' => "&#x60;"
    case '=' => "&#x3D;"
  }

  /** Which entity a string of at least four characters starts like; the
      first four characters are enough to tell the eight apart. */
  function EntityChar(p: string): char
    requires |p| >= 4
  {
    if p[1] == 'a' then '&'
    else if p[1] == 'l' then '<'
    else if p[1] == 'g' then '>'
    else if p[1] == 'q' then '"'
    else if p[2] == '3' then '\''
    else if p[3] == '2' then '/'
    else if p[3] == '6' then '`'
    else '='
  }

  /** A match of `Entity(c)` at the front of `Entity(h) + rest` means h == c. */
  lemma {:induction false} EntityPrefixFree(h: char, c: char, rest: string)
    requires h in Specials && c in Specials
    requires Entity(c) <= Entity(h) + rest
    ensures h == c
  {
    var e, pat := Entity(h), Entity(c);
    assert forall i :: 0 <= i < 4 ==> pat[i] == (e + rest)[i] == e[i];
  }

  /** One character as `EscapeOnly` writes it. */
  function EscapeChar(h: char, cs: set<char>): string {
    if h in cs && h in Specials then Entity(h) else [h]
  }

  /** Reference encoder: the characters of `cs` written as their entities,
      every other character kept. */
  function EscapeOnly(s: string, cs: set<char>): string
    decreases |s|
  {
    if |s| == 0 then ""
    else EscapeChar(s[0], cs) + EscapeOnly(s[1..], cs)
  }

  /** HTML-escapes all eight special characters. */
  function Escape(s: string): string {
    EscapeOnly(s, Specials)
  }

  /** A prefix containing no `pat[0]` is copied unchanged. */
  lemma {:induction false} ReplaceAllSkip(t: string, rest: string, pat: string, rep: string)
    requires |pat| > 0 && pat[0] !in t
    ensures ReplaceAll(t + rest, pat, rep) == t + ReplaceAll(rest, pat, rep)
    decreases |t|
  {
    if |t| == 0 {
      assert t + rest == rest;
    } else {
      var s := t + rest;
      assert s[0] == t[0] && !(pat <= s);
      assert s[1..] == t[1..] + rest;
      ReplaceAllSkip(t[1..], rest, pat, rep);
      assert [t[0]] + (t[1..] + ReplaceAll(rest, pat, rep)) == t + ReplaceAll(rest, pat, rep);
    }
  }

  /** An occurrence at the front is replaced. */
  lemma {:induction false} ReplaceAllFront(pat: string, rest: string, rep: string)
    requires |pat| > 0
    ensures ReplaceAll(pat + rest, pat, rep) == rep + ReplaceAll(rest, pat, rep)
  {
    var s := pat + rest;
    assert pat <= s;
    assert s[|pat|..] == rest;
  }

  /** A character at the front where `pat` does not start, followed by a
      stretch holding no `pat[0]`, is copied unchanged. */
  lemma {:induction false} ReplaceAllSkipHead(x: char, t: string, rest: string, pat: string, rep: string)
    requires |pat| > 0 && pat[0] !in t
    requires !(pat <= [x] + (t + rest))
    ensures ReplaceAll([x] + (t + rest), pat, rep) == [x] + (t + ReplaceAll(rest, pat, rep))
  {
    var s := [x] + (t + rest);
    assert s[0] == x && s[1..] == t + rest;
    ReplaceAllSkip(t, rest, pat, rep);
  }

  /** A text that does not start with `pat` and holds no `pat[0]` after its
      first character is copied unchanged. */
  lemma {:induction false} ReplaceAllOtherFront(e: string, rest: string, pat: string, rep: string)
    requires |pat| > 0 && |e| > 0 && pat[0] !in e[1..]
    requires !(pat <= e + rest)
    ensures ReplaceAll(e + rest, pat, rep) == e + ReplaceAll(rest, pat, rep)
  {
    assert e + rest == [e[0]] + (e[1..] + rest);
    ReplaceAllSkipHead(e[0], e[1..], rest, pat, rep);
    assert [e[0]] + (e[1..] + ReplaceAll(rest, pat, rep)) == e + ReplaceAll(rest, pat, rep);
  }

  /** An entity other than `pat` at the front is copied unchanged. */
  lemma {:induction false} ReplaceAllOtherEntity(h: char, c: char, rest: string)
    requires h in Specials && c in Specials && h != c
    ensures ReplaceAll(Entity(h) + rest, Entity(c), [c]) == Entity(h) + ReplaceAll(rest, Entity(c), [c])
  {
    if Entity(c) <= Entity(h) + rest {
      EntityPrefixFree(h, c, rest);
    }
    ReplaceAllOtherFront(Entity(h), rest, Entity(c), [c]);
  }

  /** Decoding one entity undoes the escaping of that one character and
      leaves the other escapes in place. */
  lemma {:induction false} ReplaceOneEntity(s: string, cs: set<char>, c: char)
    requires c in Specials && '&' !in s
    ensures ReplaceAll(EscapeOnly(s, cs), Entity(c), [c]) == EscapeOnly(s, cs - {c})
    decreases |s|
  {
    if |s| > 0 {
      var h := s[0];
      var tail := EscapeOnly(s[1..], cs);
      assert '&' !in s[1..];
      ReplaceOneEntity(s[1..], cs, c);
      assert EscapeOnly(s, cs) == EscapeChar(h, cs) + tail;
      assert EscapeOnly(s, cs - {c}) == EscapeChar(h, cs - {c}) + EscapeOnly(s[1..], cs - {c});
      if h in cs && h in Specials && h == c {
        ReplaceAllFront(Entity(c), tail, [c]);
      } else if h in cs && h in Specials {
        ReplaceAllOtherEntity(h, c, tail);
      } else {
        assert h != '&';
        ReplaceAllSkip([h], tail, Entity(c), [c]);
      }
    }
  }

  /** Escaping nothing is the identity. */
  lemma {:induction false} EscapeNothing(s: string)
    ensures EscapeOnly(s, {}) == s
    decreases |s|
  {
    if |s| > 0 {
      EscapeNothing(s[1..]);
      assert [s[0]] + s[1..] == s;
    }
  }

  /** One decoding stage on a partially escaped text. */
  lemma {:induction false} Stage(s: string, cs: set<char>, c: char, pat: string, rep: string, cs': set<char>)
    requires c in Specials && '&' !in s
    requires pat == Entity(c) && rep == [c] && cs' == cs - {c}
    ensures ReplaceAll(EscapeOnly(s, cs), pat, rep) == EscapeOnly(s, cs')
  {
    ReplaceOneEntity(s, cs, c);
  }

  /** Stages one and two undo the escapes of '&' and '<'. */
  lemma {:induction false} Stages12(s: string)
    requires '&' !in s
    ensures ReplaceAll(ReplaceAll(Escape(s), "&amp;", "&"), "&lt;", "<")
         == EscapeOnly(s, {'>', '"', '\'', '/', '`', '='})
  {
    var cs1: set<char> := {'<', '>', '"', '\'', '/', '`', '='};
    Stage(s, Specials, '&', "&amp;", "&", cs1);
    Stage(s, cs1, '<', "&lt;", "<", {'>', '"', '\'', '/', '`', '='});
  }

  /** Stages three and four undo the escapes of '>' and '"'. */
  lemma {:induction false} Stages34(s: string)
    requires '&' !in s
    ensures ReplaceAll(ReplaceAll(EscapeOnly(s, {'>', '"', '\'', '/', '`', '='}), "&gt;", ">"), "&quot;", "\"")
         == EscapeOnly(s, {'\'', '/', '`', '='})
  {
    var cs3: set<char> := {'"', '\'', '/', '`', '='};
    Stage(s, {'>', '"', '\'', '/', '`', '='}, '>', "&gt;", ">", cs3);
    Stage(s, cs3, '"', "&quot;", "\"", {'\'', '/', '`', '='});
  }

  /** Stages five and six undo the escapes of '\'' and '/'. */
  lemma {:induction false} Stages56(s: string)
    requires '&' !in s
    ensures ReplaceAll(ReplaceAll(EscapeOnly(s, {'\'', '/', '`', '='}), "&#39;", "'"), "&#x2F;", "/")
         == EscapeOnly(s, {'`', '='})
  {
    var cs5: set<char> := {'/', '`', '='};
    Stage(s, {'\'', '/', '`', '='}, '\'', "&#39;", "'", cs5);
    Stage(s, cs5, '/', "&#x2F;", "/", {'`', '='});
  }

  /** Stages seven and eight undo the escapes of '`' and '='. */
  lemma {:induction false} Stages78(s: string)
    requires '&' !in s
    ensures ReplaceAll(ReplaceAll(EscapeOnly(s, {'`', '='}), "&#x60;", "`"), "&#x3D;", "=") == EscapeOnly(s, {})
  {
    var cs7: set<char> := {'='};
    Stage(s, {'`', '='}, '`', "&#x60;", "`", cs7);
    Stage(s, cs7, '=', "&#x3D;", "=", {});
  }

  /** For text without '&', decoding inverts HTML escaping. */
  lemma {:induction false} DecodeInvertsEscape(s: string)
    requires '&' !in s
    ensures DecodeHtmlEntities(Escape(s)) == s
  {
    Stages12(s);
    Stages34(s);
    Stages56(s);
    Stages78(s);
    EscapeNothing(s);
  }

  /** The seven entities after "&amp;" leave the text "&amp;" alone. */
  lemma LaterStagesKeepAmp()
    ensures ReplaceAll("&amp;", "&lt;", "<") == "&amp;"
    ensures ReplaceAll("&amp;", "&gt;", ">") == "&amp;"
    ensures ReplaceAll("&amp;", "&quot;", "\"") == "&amp;"
    ensures ReplaceAll("&amp;", "&#39;", "'") == "&amp;"
    ensures ReplaceAll("&amp;", "&#x2F;", "/") == "&amp;"
    ensures ReplaceAll("&amp;", "&#x60;", "`") == "&amp;"
    ensures ReplaceAll("&amp;", "&#x3D;", "=") == "&amp;"
  {
    AmpKeptBy("&lt;", "<");
    AmpKeptBy("&gt;", ">");
    AmpKeptBy("&quot;", "\"");
    AmpKeptBy("&#39;", "'");
    AmpKeptBy("&#x2F;", "/");
    AmpKeptBy("&#x60;", "`");
    AmpKeptBy("&#x3D;", "=");
  }

  /** "&amp;" is left alone by the replacement of an entity that does not
      start "&a". */
  lemma {:induction false} AmpKeptBy(pat: string, rep: string)
    requires |pat| > 1 && pat[0] == '&' && pat[1] != 'a'
    ensures ReplaceAll("&amp;", pat, rep) == "&amp;"
  {
    var s := "&amp;";
    assert s[1] == 'a' && s[1..] == "amp;";
    assert !(pat <= s);
    assert ReplaceAll(s[1..], pat, rep) == s[1..];
    assert [s[0]] + s[1..] == s;
  }

  /** Because "&amp;" is replaced first, an escaped entity is decoded twice:
      "&amp;lt;" becomes "<", so the escape of the text "&lt;" does not
      decode back to "&lt;". */
  lemma AmpersandFirstDecodesTwice()
    ensures Escape("&lt;") == "&amp;lt;"
    ensures DecodeHtmlEntities("&amp;lt;") == "<"
  {
    assert Escape("&lt;") == Entity('&') + EscapeOnly("lt;", Specials);
    assert EscapeOnly("lt;", Specials) == "lt;" by {
      assert EscapeOnly(";", Specials) == ";" + EscapeOnly("", Specials);
      assert EscapeOnly("t;", Specials) == "t" + EscapeOnly(";", Specials);
    }
    ReplaceAllFront("&amp;", "lt;", "&");
    assert "&amp;" + "lt;" == "&amp;lt;";
    var s1 := ReplaceAll("&amp;lt;", "&amp;", "&");
    assert s1 == "&lt;";
    ReplaceAllFront("&lt;", "", "<");
    assert "&lt;" + "" == "&lt;";
    assert ReplaceAll(s1, "&lt;", "<") == "<";
  }

  /** Decoding is not idempotent: "&amp;amp;" needs two passes to become "&". */
  lemma NotIdempotent()
    ensures DecodeHtmlEntities("&amp;amp;") == "&amp;"
    ensures DecodeHtmlEntities(DecodeHtmlEntities("&amp;amp;")) == "&"
  {
    ReplaceAllFront("&amp;", "amp;", "&");
    assert "&amp;" + "amp;" == "&amp;amp;";
    assert ReplaceAll("&amp;amp;", "&amp;", "&") == "&amp;";
    LaterStagesKeepAmp();
    ReplaceAllFront("&amp;", "", "&");
    assert "&amp;" + "" == "&amp;";
    assert ReplaceAll("&amp;", "&amp;", "&") == "&";
  }
}

=== FILE: http_api.dfy ===
/** The API-key protected HTTP endpoints: `POST /api/bookmarks`, which
    enriches the payload from the page's Open Graph data, validates it and
    inserts a bookmark, and `GET /api/tags`. */
module HttpApi {
  import opened Options
  import opened JsText
  import opened Store
  import opened Net
  import Ogp
  import Entities
  import Bookmarks
  import ApiKeys
  import opened BookmarkSchema
  import Ordering

  /** The `args` member of a JSON body:
      - `NoArgs`: missing or null, or the body itself is not an object, so
        reading `body.args.url` throws;
      - `NotObject`: a string, number, boolean or array, whose fields read
        as undefined and which the schema rejects;
      - `Object`: an object, read as a payload. */
  datatype Args = NoArgs | NotObject | Object(payload: Payload)

  /** The request body: not parsable as JSON, or JSON with its `args`. */
  datatype Body = NotJson | Json(args: Args)

  datatype Reply =
    | MissingBearer            // 401, no "Bearer " credentials
    | InvalidApiKey            // 401, no key with that hash
    | InvalidJson              // 400
    | UpstreamFailed(status: int, statusText: string)
    | ValidationFailed         // 400, the schema rejected the payload
    | Created(id: Id)          // 201
    | Crashed                  // 500, an exception escaped the handler

  function StatusOf(r: Reply): (s: int)
    ensures !r.UpstreamFailed? ==> s in {201, 400, 401, 500} && CanRespondWith(s)
  {
    match r
    case MissingBearer => 401
    case InvalidApiKey => 401
    case InvalidJson => 400
    case UpstreamFailed(status, _) => status
    case ValidationFailed => 400
    case Created(_) => 201
    case Crashed => 500
  }

  const BearerPrefix: string := "Bearer "

  /** The API key carried by the header: everything after "Bearer ", or
      None when the header is missing or has another scheme. */
  function BearerKey(authHeader: Option<string>): (r: Option<string>)
    ensures r.Some? <==> authHeader.Some? && BearerPrefix <= authHeader.value
    ensures r.Some? ==> authHeader.value == BearerPrefix + r.value
  {
    if Truthy(authHeader) && BearerPrefix <= authHeader.value then
      Some(authHeader.value[|BearerPrefix|..])
    else None
  }

  /** The owner of the presented key: `sha` is the SHA-256 hex digest. */
  function Authenticate(db: Db, authHeader: Option<string>, sha: string -> string): (r: Option<Id>)
    ensures r.Some? ==> BearerKey(authHeader).Some?
    ensures r.Some? ==>
              exists k :: k in db.apiKeys && k.hashedApiKey == sha(BearerKey(authHeader).value) && k.userId == r.value
    ensures BearerKey(authHeader).Some? ==>
              (r.None? <==> forall k :: k in db.apiKeys ==> k.hashedApiKey != sha(BearerKey(authHeader).value))
  {
    match BearerKey(authHeader)
    case None => None
    case Some(key) => ApiKeys.InternalValidateApiKey(db, sha(key))
  }

  /** A non-ok response the handler forwards: its status is one a
      `Response` may be built with. Any other non-ok status makes that
      constructor throw inside the `try`, whose catch only logs. */
  predicate Forwarded(net: NetOutcome) {
    net.Response? && !IsOk(net.status) && CanRespondWith(net.status)
  }

  /** Lines 76-84 of the handler: on an ok response the title always takes
      the page title and the memo takes the description when there is one.
      Whatever ended the `try` early (a thrown fetch or a refused status)
      leaves the payload alone. */
  function Enrich(args: Payload, net: NetOutcome): (r: Payload)
    ensures r.url == args.url && r.tags == args.tags
    ensures !(net.Response? && IsOk(net.status)) ==> r == args
    ensures net.Response? && IsOk(net.status) ==> r.title == Str(Ogp.GetOgpInfo(net.body).ogTitle.value)
    ensures net.Response? && IsOk(net.status) && Ogp.GetOgpInfo(net.body).ogDescription.Some? ==>
              r.memo == Str(Ogp.GetOgpInfo(net.body).ogDescription.value)
    ensures net.Response? && Ogp.GetOgpInfo(net.body).ogDescription.None? ==> r.memo == args.memo
  {
    match net
    case Thrown(_) => args
    case Response(status, _, body) =>
      if !IsOk(status) then args
      else
        var info := Ogp.GetOgpInfo(body);
        var title := match info.ogTitle case Some(t) => Str(t) case None => args.title;
        var memo := match info.ogDescription case Some(d) => Str(d) case None => args.memo;
        args.(title := title, memo := memo)
  }

  /** A string tag list is split on ',' with no trimming. */
  function NormaliseTags(args: Payload): (r: Payload)
    ensures r.(tags := args.tags) == args
    ensures args.tags.Str? ==> r.tags == Arr(Strs(Split(args.tags.s, ',')))
    ensures !args.tags.Str? ==> r == args
  {
    match args.tags
    case Str(s) => args.(tags := Arr(Strs(Split(s, ','))))
    case _ => args
  }

  /** `memoToSave`: an empty or null memo is stored as absent. */
  function MemoToSave(memo: Option<string>): (r: Option<string>)
    ensures r.Some? <==> memo.Some? && memo.value != ""
    ensures r.Some? ==> r.value == Entities.DecodeHtmlEntities(memo.value)
  {
    if memo.Some? && memo.value != "" then Some(Entities.DecodeHtmlEntities(memo.value)) else None
  }

  /** The row the handler stores for validated form data: title, memo and
      tags decoded here and once more by `createBookmarkByApi`. */
  function Saved(id: Id, userId: Id, d: FormData): Bookmark {
    Bookmarks.Stored(id, userId, d.url, Entities.DecodeHtmlEntities(d.title), MemoToSave(d.memo),
                     Bookmarks.DecodeAll(match d.tags case None => [] case Some(ts) => ts))
  }

  /** The `createBookmarkByApi` call of lines 97-106. */
  function Insert(db: Db, userId: Id, d: FormData): (r: (Db, Id))
    ensures r.0.bookmarks == db.bookmarks + [Saved(r.1, userId, d)]
    ensures r.0.users == db.users && r.0.apiKeys == db.apiKeys && r.0.sharedTags == db.sharedTags
  {
    var tags := match d.tags case None => [] case Some(ts) => ts;
    Bookmarks.CreateBookmarkByApi(db, userId, d.url, Entities.DecodeHtmlEntities(d.title),
                                  MemoToSave(d.memo), Bookmarks.DecodeAll(tags))
  }

  /** What the schema makes of the payload once the fetch is over. */
  function Validated(args: Payload, net: NetOutcome, isUrl: string -> bool): Option<FormData> {
    Parse(NormaliseTags(Enrich(args, net)), isUrl)
  }

  /** Lines 58-133 of the handler, for an accepted key owned by `userId`:
      fetch, enrich, validate and insert. */
  function Submit(db: Db, userId: Id, args: Args, net: NetOutcome, isUrl: string -> bool): (r: (Db, Reply))
    ensures args == NoArgs ==> r == (db, Crashed)
    ensures !args.NoArgs? && Forwarded(net) ==> r == (db, UpstreamFailed(net.status, net.statusText))
    ensures args == NotObject && !Forwarded(net) ==> r == (db, ValidationFailed)
    ensures args.Object? && !Forwarded(net) ==>
              && (r.1 == ValidationFailed <==> Validated(args.payload, net, isUrl).None?)
              && (r.1.Created? <==> Validated(args.payload, net, isUrl).Some?)
    ensures !r.1.Created? ==> r.0 == db
    ensures r.0.users == db.users && r.0.apiKeys == db.apiKeys && r.0.sharedTags == db.sharedTags
    ensures r.1.Created? ==>
              && args.Object? && Validated(args.payload, net, isUrl).Some?
              && r.0.bookmarks == db.bookmarks + [Saved(r.1.id, userId, Validated(args.payload, net, isUrl).value)]
    ensures StatusOf(r.1) in {201, 400, 500} || (r.1.UpstreamFailed? && Forwarded(net))
    ensures CanRespondWith(StatusOf(r.1))
  {
    match args
    case NoArgs => (db, Crashed)
    case NotObject =>
      if Forwarded(net) then (db, UpstreamFailed(net.status, net.statusText)) else (db, ValidationFailed)
    case Object(payload) =>
      if Forwarded(net) then (db, UpstreamFailed(net.status, net.statusText))
      else
        match Validated(payload, net, isUrl)
        case None => (db, ValidationFailed)
        case Some(d) =>
          var (db', id) := Insert(db, userId, d);
          (db', Created(id))
  }

  /** `POST /api/bookmarks`. `net` is the outcome of fetching the decoded
      `args.url` (a malformed URL is a thrown error); `sha` the SHA-256 hex
      digest; `isUrl` the schema's URL check. */
  function PostBookmark(db: Db, authHeader: Option<string>, body: Body, net: NetOutcome,
                        sha: string -> string, isUrl: string -> bool): (r: (Db, Reply))
    ensures BearerKey(authHeader).None? ==> r == (db, MissingBearer)
    ensures (BearerKey(authHeader).Some? && Authenticate(db, authHeader, sha).None?) ==> r == (db, InvalidApiKey)
    ensures (Authenticate(db, authHeader, sha).Some? && body.NotJson?) ==> r == (db, InvalidJson)
    ensures (Authenticate(db, authHeader, sha).Some? && body == Json(NoArgs)) ==> r == (db, Crashed)
    ensures (Authenticate(db, authHeader, sha).Some? && body.Json? && !body.args.NoArgs? && Forwarded(net))
              ==> r == (db, UpstreamFailed(net.status, net.statusText))
    ensures (Authenticate(db, authHeader, sha).Some? && body == Json(NotObject) && !Forwarded(net))
              ==> r == (db, ValidationFailed)
    ensures (Authenticate(db, authHeader, sha).Some? && body.Json? && body.args.Object? && !Forwarded(net))
              ==> && (r.1 == ValidationFailed <==> Validated(body.args.payload, net, isUrl).None?)
                  && (r.1.Created? <==> Validated(body.args.payload, net, isUrl).Some?)
    ensures !r.1.Created? ==> r.0 == db
    ensures r.0.users == db.users && r.0.apiKeys == db.apiKeys && r.0.sharedTags == db.sharedTags
    ensures r.1.Created? ==>
              && Authenticate(db, authHeader, sha).Some?
              && body.Json? && body.args.Object? && Validated(body.args.payload, net, isUrl).Some?
              && r.0.bookmarks == db.bookmarks + [Saved(r.1.id, Authenticate(db, authHeader, sha).value,
                                                        Validated(body.args.payload, net, isUrl).value)]
    ensures StatusOf(r.1) in {201, 400, 401, 500} || (r.1.UpstreamFailed? && Forwarded(net))
    ensures CanRespondWith(StatusOf(r.1))
  {
    match Authenticate(db, authHeader, sha)
    case None => if BearerKey(authHeader).None? then (db, MissingBearer) else (db, InvalidApiKey)
    case Some(userId) =>
      match body
      case NotJson => (db, InvalidJson)
      case Json(args) => Submit(db, userId, args, net, isUrl)
  }

  /** Without a memo in the payload, the request only succeeds when the page
      supplies a description: the schema does not accept an absent memo. */
  lemma AbsentMemoNeedsDescription(db: Db, authHeader: Option<string>, args: Payload, net: NetOutcome,
                                   sha: string -> string, isUrl: string -> bool)
    requires args.memo == Undefined
    requires !(net.Response? && IsOk(net.status) && Ogp.GetOgpInfo(net.body).ogDescription.Some?)
    ensures !PostBookmark(db, authHeader, Json(Object(args)), net, sha, isUrl).1.Created?
  {
  }

  /** A fetched page whose title resolves to the empty string makes the
      request fail validation, whatever title the payload carried. */
  lemma {:induction false} EmptyPageTitleRejected(db: Db, authHeader: Option<string>, args: Payload, status: int, statusText: string,
                               page: Ogp.Document, sha: string -> string, isUrl: string -> bool)
    ensures Authenticate(db, authHeader, sha).Some? && IsOk(status) && Ogp.GetOgpInfo(page).ogTitle == Some("")
            ==> PostBookmark(db, authHeader, Json(Object(args)), Response(status, statusText, page), sha, isUrl).1
                == ValidationFailed
  {
    var net := Response(status, statusText, page);
    EmptyTitleInvalid(args, net, isUrl);
  }

  /** The schema step of `EmptyPageTitleRejected`. */
  lemma {:induction false} EmptyTitleInvalid(args: Payload, net: NetOutcome, isUrl: string -> bool)
    ensures net.Response? && IsOk(net.status) && Ogp.GetOgpInfo(net.body).ogTitle == Some("")
            ==> Validated(args, net, isUrl).None?
  {
    if net.Response? && IsOk(net.status) && Ogp.GetOgpInfo(net.body).ogTitle == Some("") {
      var e := Enrich(args, net);
      assert e.title == Str("");
      assert NormaliseTags(e).title == Str("");
    }
  }

  /** A valid payload whose fetch failed with a thrown error is stored as
      sent, up to the two rounds of entity decoding. */
  lemma ThrownFetchKeepsPayload(db: Db, authHeader: Option<string>, d: FormData, name: string,
                                sha: string -> string, isUrl: string -> bool)
    requires Authenticate(db, authHeader, sha).Some?
    requires Valid(d, isUrl)
    ensures var (db', reply) := PostBookmark(db, authHeader, Json(Object(Embed(d))), Thrown(name), sha, isUrl);
            reply.Created? && db'.bookmarks[|db.bookmarks|].title
                              == Entities.DecodeHtmlEntities(Entities.DecodeHtmlEntities(d.title))
  {
    ParseEmbed(d, isUrl);
    assert NormaliseTags(Embed(d)) == Embed(d);
  }

  /** The reply of `GET /api/tags`. */
  datatype TagsReply = TagsMissingBearer | TagsInvalidApiKey | TagList(tags: seq<string>)

  /** `GET /api/tags`: the sorted, duplicate-free tags of the key owner's
      bookmarks. */
  function GetTags(db: Db, authHeader: Option<string>, sha: string -> string): (r: TagsReply)
    ensures BearerKey(authHeader).None? ==> r == TagsMissingBearer
    ensures (BearerKey(authHeader).Some? && Authenticate(db, authHeader, sha).None?) ==> r == TagsInvalidApiKey
    ensures Authenticate(db, authHeader, sha).Some? ==> r.TagList? && Ordering.StrictlySorted(r.tags)
    ensures r.TagList? ==>
              forall t :: t in r.tags <==>
                exists b :: b in db.bookmarks && b.userId == Authenticate(db, authHeader, sha).value && t in b.tags
  {
    match Authenticate(db, authHeader, sha)
    case None => if BearerKey(authHeader).None? then TagsMissingBearer else TagsInvalidApiKey
    case Some(userId) => TagList(Bookmarks.GetAllUniqueTagsForUser(db, userId))
  }

  /** A key made by `generateApiKey` opens both endpoints: presented as
      "Bearer " + key it authenticates the caller who generated it, unless
      an older key already had the same hash. */
  lemma GeneratedKeyAuthenticates(db: Db, auth: Option<Identity>, name: Option<string>, secureId: string,
                                  sha: string -> string)
    requires ApiKeys.IsSecureId(secureId) && auth.Some?
    requires forall k :: k in db.apiKeys ==> k.hashedApiKey != sha(ApiKeys.RawApiKey(secureId))
    ensures var (db', g) := ApiKeys.GenerateApiKey(db, auth, name, secureId, sha).value;
            Authenticate(db', Some(BearerPrefix + g.apiKey), sha) == Some(FindUser(db', auth.value.subject).value.id)
  {
    var (db', g) := ApiKeys.GenerateApiKey(db, auth, name, secureId, sha).value;
    ApiKeys.GeneratedKeyValidates(db, auth, name, secureId, sha);
    assert (BearerPrefix + g.apiKey)[|BearerPrefix|..] == g.apiKey;
  }

  /** The tags of a bookmark created through the API are listed by
      `GET /api/tags` under the same key. */
  lemma PostedTagsListed(db: Db, authHeader: Option<string>, body: Body, net: NetOutcome,
                         sha: string -> string, isUrl: string -> bool)
    ensures var (db', reply) := PostBookmark(db, authHeader, body, net, sha, isUrl);
            reply.Created? ==>
              var listed := GetTags(db', authHeader, sha);
              && listed.TagList?
              && forall t :: t in db'.bookmarks[|db.bookmarks|].tags ==> t in listed.tags
  {
    var (db', reply) := PostBookmark(db, authHeader, body, net, sha, isUrl);
    if reply.Created? {
      var owner := Authenticate(db, authHeader, sha).value;
      assert Authenticate(db', authHeader, sha) == Some(owner) by {
        assert ApiKeys.InternalValidateApiKey(db', sha(BearerKey(authHeader).value))
            == ApiKeys.InternalValidateApiKey(db, sha(BearerKey(authHeader).value));
      }
      var b := db'.bookmarks[|db.bookmarks|];
      assert b in db'.bookmarks && b.userId == owner;
      assert GetTags(db', authHeader, sha) == TagList(Bookmarks.GetAllUniqueTagsForUser(db', owner));
    }
  }
}

=== FILE: js_text.dfy ===
/** JavaScript string conventions the source relies on: truthiness of an
    optional string, `||` and `??` on optional strings, `split`, `join`
    and `trim`. Strings are sequences of characters. */
module JsText {
  import opened Options

  /** A present, non-empty string: the values JavaScript treats as truthy
      among `string | undefined`. */
  predicate Truthy(s: Option<string>) {
    s.Some? && s.value != ""
  }

  /** `a || b` on optional strings: an empty or absent left side yields the
      right side. */
  function Or(a: Option<string>, b: Option<string>): Option<string> {
    if Truthy(a) then a else b
  }

  /** `a ?? b`: only an absent left side yields the right side. */
  function Coalesce(a: Option<string>, b: Option<string>): Option<string> {
    if a.Some? then a else b
  }

  /** `s.split(sep)` with a one-character separator: always at least one
      piece, an empty string gives `[""]`, adjacent separators give empty
      pieces, and nothing is trimmed. */
  function Split(s: string, sep: char): (r: seq<string>)
    ensures |r| >= 1
    ensures forall i :: 0 <= i < |r| ==> sep !in r[i]
    decreases |s|
  {
    if |s| == 0 then [""]
    else
      var rest := Split(s[1..], sep);
      if s[0] == sep then [""] + rest
      else [[s[0]] + rest[0]] + rest[1..]
  }

  /** `parts.join(sep)`. */
  function Join(parts: seq<string>, sep: char): string
    decreases |parts|
  {
    if |parts| == 0 then ""
    else if |parts| == 1 then parts[0]
    else parts[0] + [sep] + Join(parts[1..], sep)
  }

  /** Joining the pieces of a split restores the original string. */
  lemma {:induction false} JoinSplit(s: string, sep: char)
    ensures Join(Split(s, sep), sep) == s
    decreases |s|
  {
    if |s| > 0 {
      var rest := Split(s[1..], sep);
      JoinSplit(s[1..], sep);
      if s[0] == sep {
        assert ([""] + rest)[1..] == rest;
        assert s == [s[0]] + s[1..];
      } else {
        var parts := [[s[0]] + rest[0]] + rest[1..];
        if |rest| == 1 {
          assert s == [s[0]] + s[1..];
        } else {
          assert parts[1..] == rest[1..];
          assert Join(rest, sep) == rest[0] + [sep] + Join(rest[1..], sep);
          assert s == [s[0]] + s[1..];
        }
      }
    }
  }

  /** Splitting a separator-free string gives that string alone. */
  lemma {:induction false} SplitNoSeparator(p: string, sep: char)
    requires sep !in p
    ensures Split(p, sep) == [p]
    decreases |p|
  {
    if |p| > 0 {
      SplitNoSeparator(p[1..], sep);
      assert [p[0]] + p[1..] == p;
    }
  }

  /** A separator-free head followed by a separator starts a new piece. */
  lemma {:induction false} SplitHead(p: string, sep: char, t: string)
    requires sep !in p
    ensures Split(p + [sep] + t, sep) == [p] + Split(t, sep)
    decreases |p|
  {
    var s := p + [sep] + t;
    if |p| == 0 {
      assert s[0] == sep && s[1..] == t;
    } else {
      assert s[1..] == p[1..] + [sep] + t;
      SplitHead(p[1..], sep, t);
      assert [p[0]] + p[1..] == p;
    }
  }

  /** Splitting the join of separator-free pieces gives the pieces back. */
  lemma {:induction false} SplitJoin(parts: seq<string>, sep: char)
    requires |parts| >= 1
    requires forall i :: 0 <= i < |parts| ==> sep !in parts[i]
    ensures Split(Join(parts, sep), sep) == parts
    decreases |parts|
  {
    if |parts| == 1 {
      SplitNoSeparator(parts[0], sep);
    } else {
      SplitJoin(parts[1..], sep);
      SplitHead(parts[0], sep, Join(parts[1..], sep));
      assert [parts[0]] + parts[1..] == parts;
    }
  }

  /** The JavaScript white-space and line-terminator characters that
      `String.prototype.trim` strips. */
  predicate IsJsSpace(c: char) {
    var n := c as int;
    (9 <= n <= 13) || n == 0x20 || n == 0xA0 || n == 0x1680
    || (0x2000 <= n <= 0x200A) || n == 0x2028 || n == 0x2029
    || n == 0x202F || n == 0x205F || n == 0x3000 || n == 0xFEFF
  }

  /** Every character is white space. */
  predicate Blank(s: string) {
    forall i :: 0 <= i < |s| ==> IsJsSpace(s[i])
  }

  /** Leading white space removed: the result is a suffix of `s`, what was
      dropped is blank, and the result does not start with white space. */
  function TrimStart(s: string): (r: string)
    ensures |r| <= |s| && r == s[|s| - |r|..]
    ensures Blank(s[..|s| - |r|])
    ensures r == "" || !IsJsSpace(r[0])
    decreases |s|
  {
    if |s| > 0 && IsJsSpace(s[0]) then TrimStart(s[1..]) else s
  }

  /** Trailing white space removed: the result is a prefix of `s`, what was
      dropped is blank, and the result does not end with white space. */
  function TrimEnd(s: string): (r: string)
    ensures |r| <= |s| && r == s[..|r|]
    ensures Blank(s[|r|..])
    ensures r == "" || !IsJsSpace(r[|r| - 1])
    decreases |s|
  {
    if |s| > 0 && IsJsSpace(s[|s| - 1]) then
      var r := TrimEnd(s[..|s| - 1]);
      assert s[|r|..] == s[..|s| - 1][|r|..] + [s[|s| - 1]];
      r
    else s
  }

  /** `s.trim()`. */
  function Trim(s: string): string {
    TrimEnd(TrimStart(s))
  }

  /** A string is blank exactly when both parts of any cut are. */
  lemma BlankCut(s: string, k: nat)
    requires k <= |s|
    ensures Blank(s) <==> Blank(s[..k]) && Blank(s[k..])
  {
    if Blank(s[..k]) && Blank(s[k..]) {
      forall i | 0 <= i < |s| ensures IsJsSpace(s[i]) {
        if i < k { assert s[i] == s[..k][i]; } else { assert s[i] == s[k..][i - k]; }
      }
    }
    if Blank(s) {
      assert forall i :: 0 <= i < k ==> s[..k][i] == s[i];
      assert forall i :: 0 <= i < |s| - k ==> s[k..][i] == s[k + i];
    }
  }

  /** `s.trim() !== ''` exactly when `s` holds a non-white-space character. */
  lemma TrimEmptyIffBlank(s: string)
    ensures Trim(s) == "" <==> Blank(s)
  {
    var a := TrimStart(s);
    var b := TrimEnd(a);
    BlankCut(s, |s| - |a|);
    BlankCut(a, |b|);
    assert b == "" ==> a[|b|..] == a;
    assert a != "" ==> !Blank(a);
  }

  /** `s.split('/').pop()`: the piece after the final '/'. */
  function LastSegment(s: string): string {
    var pieces := Split(s, '/');
    pieces[|pieces| - 1]
  }

  /** The last segment is the suffix of `s` after its final '/', or all of
      `s` when it has no '/'. */
  lemma {:induction false} LastSegmentIsTail(s: string)
    ensures '/' !in LastSegment(s)
    ensures exists k :: 0 <= k <= |s| && s[k..] == LastSegment(s) && (k == 0 || s[k - 1] == '/')
    ensures '/' !in s ==> LastSegment(s) == s
    decreases |s|
  {
    if '/' !in s {
      SplitNoSeparator(s, '/');
      assert s[0..] == s;
    } else {
      var rest := Split(s[1..], '/');
      JoinSplit(s[1..], '/');
      if |rest| == 1 {
        assert s[1..] == rest[0];
        assert s == [s[0]] + s[1..];
        assert s[0] == '/';
        assert LastSegment(s) == rest[0];
      } else {
        assert LastSegment(s) == LastSegment(s[1..]);
        LastSegmentIsTail(s[1..]);
        var k :| 0 <= k <= |s[1..]| && s[1..][k..] == LastSegment(s[1..]) && (k == 0 || s[1..][k - 1] == '/');
        if k == 0 {
          assert false;
        }
        assert s[k + 1..] == s[1..][k..];
        assert s[k] == s[1..][k - 1];
      }
    }
  }
}

=== FILE: net.dfy ===
/** The outcome of an outbound `fetch` (with its five-second abort signal)
    followed by reading the body: either a response, or the name of the
    error that was thrown. */
module Net {
  import Ogp

  datatype NetOutcome =
    | Response(status: int, statusText: string, body: Ogp.Document)
    | Thrown(errorName: string)

  /** `response.ok`: a status in the 200-299 range. */
  predicate IsOk(status: int) {
    200 <= status <= 299
  }

  /** The statuses whose responses may not carry a body (section 2.2.3 of
      the Fetch standard). */
  const NullBodyStatuses: set<int> := {101, 103, 204, 205, 304}

  /** Whether `new Response(body, {status})` with a non-null body succeeds:
      the Fetch standard's constructor throws a `RangeError` for a status
      outside 200-599 and a `TypeError` for a null-body status. */
  predicate CanRespondWith(status: int) {
    200 <= status <= 599 && status !in NullBodyStatuses
  }

  /** The name of the error that constructor throws. */
  function ResponseInitError(status: int): (name: string)
    requires !CanRespondWith(status)
    ensures name == "RangeError" <==> !(200 <= status <= 599)
    ensures name == "TypeError" <==> 200 <= status <= 599 && status in NullBodyStatuses
  {
    if 200 <= status <= 599 then "TypeError" else "RangeError"
  }
}

=== FILE: ogp.dfy ===
/** Open Graph metadata read from an already-parsed page: the first-match
    extractor `getOgpInfo` (used by the authenticated action and the API
    route for bookmarks). */
module Ogp {
  import opened Options
  import opened JsText
  import Seqs

  /** One `<meta>` element: its `property`, `name` and `content` attributes. */
  datatype Meta = Meta(property: Option<string>, name: Option<string>, content: Option<string>)

  /** A parsed page: its `<meta>` elements in document order and the text of
      its `<title>` elements (empty when there is none). */
  datatype Document = Document(metas: seq<Meta>, title: string)

  /** The metadata record; every field may be absent. */
  datatype OgpData = OgpData(
    ogTitle: Option<string>,
    ogDescription: Option<string>,
    ogImage: Option<string>,
    ogUrl: Option<string>,
    ogSiteName: Option<string>)

  /** Which attribute a selector matches on. */
  datatype Attr = Property | Name

  predicate Selects(m: Meta, a: Attr, key: string) {
    match a
    case Property => m.property == Some(key)
    case Name => m.name == Some(key)
  }

  /** `$('meta[<a>="<key>"]').attr('content')`: the `content` attribute of
      the first matching element, absent when nothing matches. */
  function SelectContent(doc: Document, a: Attr, key: string): Option<string> {
    match Seqs.FirstIndex(doc.metas, m => Selects(m, a, key))
    case None => None
    case Some(i) => doc.metas[i].content
  }

  /** Position `i` holds the first element matching `a`=`key`. */
  ghost predicate IsFirst(metas: seq<Meta>, a: Attr, key: string, i: int) {
    0 <= i < |metas| && Selects(metas[i], a, key)
    && forall j :: 0 <= j < i ==> !Selects(metas[j], a, key)
  }

  /** The first `property=key` match exists and carries non-empty content. */
  ghost predicate PropertyWins(doc: Document, key: string) {
    exists i :: IsFirst(doc.metas, Property, key, i) && Truthy(doc.metas[i].content)
  }

  /** `getMetaContent`: the `property=` variant's content when non-empty,
      otherwise whatever the `name=` variant gives. */
  function GetMetaContent(doc: Document, key: string): (r: Option<string>)
    ensures forall i :: IsFirst(doc.metas, Property, key, i) && Truthy(doc.metas[i].content)
              ==> r == doc.metas[i].content
    ensures !PropertyWins(doc, key) ==>
              forall i :: IsFirst(doc.metas, Name, key, i) ==> r == doc.metas[i].content
    ensures (!PropertyWins(doc, key) && forall i :: 0 <= i < |doc.metas| ==> !Selects(doc.metas[i], Name, key))
            ==> r == None
  {
    var p := SelectContent(doc, Property, key);
    var n := SelectContent(doc, Name, key);
    assert Truthy(p) ==> PropertyWins(doc, key) by {
      if Truthy(p) {
        var i := Seqs.FirstIndex(doc.metas, m => Selects(m, Property, key)).value;
        assert IsFirst(doc.metas, Property, key, i);
      }
    }
    assert forall i :: IsFirst(doc.metas, Property, key, i) ==> p == doc.metas[i].content;
    assert forall i :: IsFirst(doc.metas, Name, key, i) ==> n == doc.metas[i].content;
    Or(p, n)
  }

  /** `getOgpInfo`: first match per key, with the `<title>` text behind
      `og:title` and `description` behind `og:description`. */
  function GetOgpInfo(doc: Document): (r: OgpData)
    ensures r.ogTitle.Some?
    ensures Truthy(GetMetaContent(doc, "og:title")) ==> r.ogTitle == GetMetaContent(doc, "og:title")
    ensures !Truthy(GetMetaContent(doc, "og:title")) ==> r.ogTitle == Some(doc.title)
    ensures Truthy(GetMetaContent(doc, "og:description")) ==> r.ogDescription == GetMetaContent(doc, "og:description")
    ensures !Truthy(GetMetaContent(doc, "og:description")) ==> r.ogDescription == GetMetaContent(doc, "description")
    ensures r.ogImage == GetMetaContent(doc, "og:image")
    ensures r.ogUrl == GetMetaContent(doc, "og:url")
    ensures r.ogSiteName == GetMetaContent(doc, "og:site_name")
  {
    OgpData(
      ogTitle := Or(GetMetaContent(doc, "og:title"), Some(doc.title)),
      ogDescription := Or(GetMetaContent(doc, "og:description"), GetMetaContent(doc, "description")),
      ogImage := GetMetaContent(doc, "og:image"),
      ogUrl := GetMetaContent(doc, "og:url"),
      ogSiteName := GetMetaContent(doc, "og:site_name"))
  }

  /** With several `property=og:title` elements the first in document order
      decides, whatever follows it. */
  lemma FirstTitleWins(doc: Document, i: nat)
    requires IsFirst(doc.metas, Property, "og:title", i)
    requires Truthy(doc.metas[i].content)
    ensures GetOgpInfo(doc).ogTitle == doc.metas[i].content
  {
  }

  /** An empty `content=""` on the first `property=` match is treated as
      absent: the `name=` variant decides. */
  lemma EmptyPropertyContentFallsThrough(doc: Document, key: string, i: nat, j: nat)
    requires IsFirst(doc.metas, Property, key, i) && doc.metas[i].content == Some("")
    requires IsFirst(doc.metas, Name, key, j)
    ensures GetMetaContent(doc, key) == doc.metas[j].content
  {
    assert !PropertyWins(doc, key);
  }
}

=== FILE: ogp_action.dfy ===
/** The authenticated Convex action `fetchOgp`: checks the caller and the
    URL, fetches the page and runs the first-match extractor. */
module OgpAction {
  import opened Options
  import opened Ogp
  import opened Net

  /** The message of the `Error` the action throws. */
  datatype ActionError =
    | NotAuthenticated   // "Not authenticated. Cannot fetch OGP data."
    | InvalidUrlFormat   // "Invalid URL format."
    | FetchTimedOut      // "URL fetch timed out."
    | FetchServerError   // "Server error while fetching OGP data."

  datatype ActionResult = Fetched(data: OgpData) | Rejected(error: ActionError)

  /** The names of the errors an aborted or timed-out fetch rejects with. */
  predicate IsTimeout(errorName: string) {
    errorName == "TimeoutError" || errorName == "AbortError"
  }

  /** `fetchOgp({url})`. `authenticated` says whether the caller has an
      identity; `decodeUri` is `decodeURIComponent` (None when it throws a
      `URIError`); `isUrl` whether `new URL(..)` accepts the decoded string.
      The fetch itself uses the undecoded `url`, and its outcome is `net`. */
  function FetchOgp(authenticated: bool, url: string, decodeUri: string -> Option<string>,
                    isUrl: string -> bool, net: NetOutcome): (r: ActionResult)
    ensures !authenticated ==> r == Rejected(NotAuthenticated)
    ensures (authenticated && (decodeUri(url).None? || !isUrl(decodeUri(url).value)))
              ==> r == Rejected(InvalidUrlFormat)
    ensures r.Fetched? <==>
              (authenticated && decodeUri(url).Some? && isUrl(decodeUri(url).value)
               && net.Response? && IsOk(net.status))
    ensures r.Fetched? ==> r.data == GetOgpInfo(net.body)
    ensures r == Rejected(FetchTimedOut) <==>
              (authenticated && decodeUri(url).Some? && isUrl(decodeUri(url).value)
               && net.Thrown? && IsTimeout(net.errorName))
    ensures r == Rejected(FetchServerError) <==>
              (authenticated && decodeUri(url).Some? && isUrl(decodeUri(url).value)
               && ((net.Response? && !IsOk(net.status)) || (net.Thrown? && !IsTimeout(net.errorName))))
  {
    if !authenticated then Rejected(NotAuthenticated)
    else match decodeUri(url)
      case None => Rejected(InvalidUrlFormat)
      case Some(decoded) =>
        if !isUrl(decoded) then Rejected(InvalidUrlFormat)
        else match net
          case Response(status, _, body) =>
            // a non-ok status throws inside the try and is reported as a server error
            if IsOk(status) then Fetched(GetOgpInfo(body)) else Rejected(FetchServerError)
          case Thrown(name) =>
            if IsTimeout(name) then Rejected(FetchTimedOut) else Rejected(FetchServerError)
  }

  /** A successful action always returns a title: the `og:title` content or,
      failing that, the page's `<title>` text. */
  lemma FetchedHasTitle(authenticated: bool, url: string, decodeUri: string -> Option<string>,
                        isUrl: string -> bool, net: NetOutcome)
    ensures var r := FetchOgp(authenticated, url, decodeUri, isUrl, net);
            r.Fetched? ==>
              && r.data.ogTitle.Some?
              && (Some(r.data.ogTitle.value) == GetMetaContent(net.body, "og:title")
                  || r.data.ogTitle.value == net.body.title)
  {
  }

  /** The upstream's status text never reaches the caller: every non-ok
      status gives the same rejection. */
  lemma UpstreamStatusHidden(url: string, decodeUri: string -> Option<string>, isUrl: string -> bool,
                             s1: int, t1: string, s2: int, t2: string, body: Document)
    requires !IsOk(s1) && !IsOk(s2)
    ensures FetchOgp(true, url, decodeUri, isUrl, Response(s1, t1, body))
         == FetchOgp(true, url, decodeUri, isUrl, Response(s2, t2, body))
  {
  }
}

=== FILE: ogp_route.dfy ===
/** The `GET /api/ogp?url=...` proxy route: URL checks, a last-match scan of
    `og:` meta elements, title/description fallbacks and the mapping of
    fetch outcomes to HTTP statuses. */
module OgpRoute {
  import opened Options
  import opened JsText
  import opened Ogp
  import opened Net
  import Seqs

  /** The five Open Graph keys the route copies into the record. */
  datatype OgKey = Title | Description | Image | Url | SiteName

  function KeyProperty(k: OgKey): string {
    match k
    case Title => "og:title"
    case Description => "og:description"
    case Image => "og:image"
    case Url => "og:url"
    case SiteName => "og:site_name"
  }

  function Field(d: OgpData, k: OgKey): Option<string> {
    match k
    case Title => d.ogTitle
    case Description => d.ogDescription
    case Image => d.ogImage
    case Url => d.ogUrl
    case SiteName => d.ogSiteName
  }

  const EmptyRecord := OgpData(None, None, None, None, None)

  /** One iteration of the `$('meta[property^="og:"]').each(..)` loop: a
      known key with non-empty content overwrites that field. */
  function ApplyMeta(acc: OgpData, m: Meta): OgpData {
    if m.property.Some? && "og:" <= m.property.value && Truthy(m.property) && Truthy(m.content) then
      var p := m.property.value;
      if p == "og:title" then acc.(ogTitle := m.content)
      else if p == "og:description" then acc.(ogDescription := m.content)
      else if p == "og:image" then acc.(ogImage := m.content)
      else if p == "og:url" then acc.(ogUrl := m.content)
      else if p == "og:site_name" then acc.(ogSiteName := m.content)
      else acc
    else acc
  }

  /** The record after the loop has visited every element in document order. */
  function ScanMetas(metas: seq<Meta>): OgpData
    decreases |metas|
  {
    if |metas| == 0 then EmptyRecord
    else ApplyMeta(ScanMetas(metas[..|metas| - 1]), metas[|metas| - 1])
  }

  /** Element `m` sets field `k`. */
  predicate Sets(m: Meta, k: OgKey) {
    m.property == Some(KeyProperty(k)) && Truthy(m.content)
  }

  /** Reference definition: the content of the last element that sets `k`. */
  function LastContent(metas: seq<Meta>, k: OgKey): Option<string> {
    match Seqs.LastIndex(metas, m => Sets(m, k))
    case None => None
    case Some(i) => metas[i].content
  }

  /** One loop iteration touches only the field its property names, and only
      when its content is non-empty. */
  lemma ApplyMetaField(acc: OgpData, m: Meta, k: OgKey)
    ensures Field(ApplyMeta(acc, m), k) == if Sets(m, k) then m.content else Field(acc, k)
  {
  }

  /** An element whose property is not one of the five keys, `og:` or not,
      leaves the record unchanged. */
  lemma OtherPropertiesIgnored(acc: OgpData, m: Meta)
    requires forall k :: m.property != Some(KeyProperty(k))
    ensures ApplyMeta(acc, m) == acc
  {
    assert m.property != Some(KeyProperty(Title));
    assert m.property != Some(KeyProperty(Description));
    assert m.property != Some(KeyProperty(Image));
    assert m.property != Some(KeyProperty(Url));
    assert m.property != Some(KeyProperty(SiteName));
  }

  /** Among duplicate `og:` elements the last one with non-empty content wins. */
  lemma {:induction false} ScanLastWins(metas: seq<Meta>, k: OgKey)
    ensures Field(ScanMetas(metas), k) == LastContent(metas, k)
    decreases |metas|
  {
    if |metas| > 0 {
      var pre := metas[..|metas| - 1];
      ScanLastWins(pre, k);
      ApplyMetaField(ScanMetas(pre), metas[|metas| - 1], k);
      if !Sets(metas[|metas| - 1], k) {
        assert Seqs.LastIndex(metas, m => Sets(m, k)) == Seqs.LastIndex(pre, m => Sets(m, k));
        match Seqs.LastIndex(pre, m => Sets(m, k))
        case None =>
        case Some(i) => assert metas[i] == pre[i];
      }
    }
  }

  /** The success-path record: the scanned fields, with the `<title>` text
      behind an unset title and the first `name="description"` content
      behind an unset description. */
  function RouteExtract(doc: Document): (r: OgpData)
    ensures r.ogTitle.Some?
    ensures LastContent(doc.metas, Title).Some? ==> r.ogTitle == LastContent(doc.metas, Title)
    ensures LastContent(doc.metas, Title).None? ==> r.ogTitle == Some(doc.title)
    ensures LastContent(doc.metas, Description).Some? ==> r.ogDescription == LastContent(doc.metas, Description)
    ensures LastContent(doc.metas, Description).None? ==> r.ogDescription == SelectContent(doc, Name, "description")
    ensures r.ogImage == LastContent(doc.metas, Image)
    ensures r.ogUrl == LastContent(doc.metas, Url)
    ensures r.ogSiteName == LastContent(doc.metas, SiteName)
  {
    var scanned := ScanMetas(doc.metas);
    ScanLastWins(doc.metas, Title);
    ScanLastWins(doc.metas, Description);
    ScanLastWins(doc.metas, Image);
    ScanLastWins(doc.metas, Url);
    ScanLastWins(doc.metas, SiteName);
    var title := if Truthy(scanned.ogTitle) then scanned.ogTitle else Some(doc.title);
    var description :=
      if Truthy(scanned.ogDescription) then scanned.ogDescription
      else SelectContent(doc, Name, "description");
    scanned.(ogTitle := title, ogDescription := description)
  }

  /** The two extractors disagree: with two `og:title` elements `getOgpInfo`
      keeps the first and the route keeps the last. */
  lemma ExtractorsDisagree()
    ensures var doc := Document([Meta(Some("og:title"), None, Some("A")), Meta(Some("og:title"), None, Some("B"))], "");
            GetOgpInfo(doc).ogTitle == Some("A") && RouteExtract(doc).ogTitle == Some("B")
  {
    var doc := Document([Meta(Some("og:title"), None, Some("A")), Meta(Some("og:title"), None, Some("B"))], "");
    assert IsFirst(doc.metas, Property, "og:title", 0);
    FirstTitleWins(doc, 0);
    assert LastContent(doc.metas, Title) == Some("B") by {
      assert Sets(doc.metas[1], Title);
    }
  }

  /** The route ignores `name=` variants of the `og:` keys, which
      `getOgpInfo` accepts. */
  lemma NameVariantOnlyInGetOgpInfo()
    ensures var doc := Document([Meta(None, Some("og:image"), Some("i.png"))], "");
            GetOgpInfo(doc).ogImage == Some("i.png") && RouteExtract(doc).ogImage == None
  {
    var doc := Document([Meta(None, Some("og:image"), Some("i.png"))], "");
    assert IsFirst(doc.metas, Name, "og:image", 0);
    assert !Sets(doc.metas[0], Image);
  }

  /** On this page `key` appears at most once as a `property`, always with
      non-empty content, and never as a `name`. */
  ghost predicate CanonicalFor(doc: Document, key: string) {
    && (forall i, j :: 0 <= i < j < |doc.metas| && doc.metas[i].property == Some(key)
          ==> doc.metas[j].property != Some(key))
    && (forall i :: 0 <= i < |doc.metas| && doc.metas[i].property == Some(key)
          ==> Truthy(doc.metas[i].content))
    && (forall i :: 0 <= i < |doc.metas| ==> doc.metas[i].name != Some(key))
  }

  /** A page where each of the five keys is canonical and where no element
      has `property="description"`. */
  ghost predicate Canonical(doc: Document) {
    && CanonicalFor(doc, "og:title")
    && CanonicalFor(doc, "og:description")
    && CanonicalFor(doc, "og:image")
    && CanonicalFor(doc, "og:url")
    && CanonicalFor(doc, "og:site_name")
    && (forall i :: 0 <= i < |doc.metas| ==> doc.metas[i].property != Some("description"))
  }

  /** On a canonical page the first-match lookup of a key equals the
      last-match scan. */
  lemma {:induction false} KeyAgrees(doc: Document, k: OgKey)
    requires CanonicalFor(doc, KeyProperty(k))
    ensures GetMetaContent(doc, KeyProperty(k)) == LastContent(doc.metas, k)
  {
    var key := KeyProperty(k);
    var fi := Seqs.FirstIndex(doc.metas, m => Selects(m, Property, key));
    var li := Seqs.LastIndex(doc.metas, m => Sets(m, k));
    assert Seqs.FirstIndex(doc.metas, m => Selects(m, Name, key)).None?;
    if fi.Some? {
      var i := fi.value;
      assert Sets(doc.metas[i], k);
      assert li == Some(i) by {
        assert forall j :: i < j < |doc.metas| ==> !Sets(doc.metas[j], k);
      }
    } else {
      assert li.None? by {
        assert forall j :: 0 <= j < |doc.metas| ==> !Sets(doc.metas[j], k);
      }
    }
  }

  /** On a canonical page both extractors produce the same record. */
  lemma {:induction false} ExtractorsAgreeOnCanonical(doc: Document)
    requires Canonical(doc)
    ensures GetOgpInfo(doc) == RouteExtract(doc)
  {
    assert CanonicalFor(doc, KeyProperty(Title));
    assert CanonicalFor(doc, KeyProperty(Description));
    assert CanonicalFor(doc, KeyProperty(Image));
    assert CanonicalFor(doc, KeyProperty(Url));
    assert CanonicalFor(doc, KeyProperty(SiteName));
    KeyAgrees(doc, Title);
    KeyAgrees(doc, Description);
    KeyAgrees(doc, Image);
    KeyAgrees(doc, Url);
    KeyAgrees(doc, SiteName);
    DescriptionIsNameOnly(doc);
    TitleSame(doc);
    DescriptionSame(doc);
    ImageSame(doc);
    UrlSame(doc);
    SiteNameSame(doc);
  }

  /** Field by field: when a key's lookup equals its scan, the two records
      agree on that key's field. */
  lemma {:induction false} TitleSame(doc: Document)
    requires GetMetaContent(doc, KeyProperty(Title)) == LastContent(doc.metas, Title)
    ensures GetOgpInfo(doc).ogTitle == RouteExtract(doc).ogTitle
  {
    assert KeyProperty(Title) == "og:title";
  }

  lemma {:induction false} DescriptionSame(doc: Document)
    requires GetMetaContent(doc, KeyProperty(Description)) == LastContent(doc.metas, Description)
    requires GetMetaContent(doc, "description") == SelectContent(doc, Name, "description")
    ensures GetOgpInfo(doc).ogDescription == RouteExtract(doc).ogDescription
  {
    assert KeyProperty(Description) == "og:description";
  }

  lemma {:induction false} ImageSame(doc: Document)
    requires GetMetaContent(doc, KeyProperty(Image)) == LastContent(doc.metas, Image)
    ensures GetOgpInfo(doc).ogImage == RouteExtract(doc).ogImage
  {
    assert KeyProperty(Image) == "og:image";
  }

  lemma {:induction false} UrlSame(doc: Document)
    requires GetMetaContent(doc, KeyProperty(Url)) == LastContent(doc.metas, Url)
    ensures GetOgpInfo(doc).ogUrl == RouteExtract(doc).ogUrl
  {
    assert KeyProperty(Url) == "og:url";
  }

  lemma {:induction false} SiteNameSame(doc: Document)
    requires GetMetaContent(doc, KeyProperty(SiteName)) == LastContent(doc.metas, SiteName)
    ensures GetOgpInfo(doc).ogSiteName == RouteExtract(doc).ogSiteName
  {
    assert KeyProperty(SiteName) == "og:site_name";
  }

  /** Without a `property="description"` element the plain description
      lookup is the `name="description"` lookup. */
  lemma DescriptionIsNameOnly(doc: Document)
    requires forall i :: 0 <= i < |doc.metas| ==> doc.metas[i].property != Some("description")
    ensures GetMetaContent(doc, "description") == SelectContent(doc, Name, "description")
  {
    assert SelectContent(doc, Property, "description").None? by {
      assert Seqs.FirstIndex(doc.metas, m => Selects(m, Property, "description")).None?;
    }
  }

  /** Why a request failed; each maps to the route's error message. */
  datatype RouteError = MissingUrl | InvalidUrl | FetchFailed(statusText: string) | TimedOut | ServerError

  /** The JSON reply: the record with status 200, or an error with its status. */
  datatype Reply = Success(data: OgpData) | Failure(status: int, error: RouteError)

  function StatusOf(r: Reply): int {
    match r
    case Success(_) => 200
    case Failure(status, _) => status
  }

  /** The catch block as written: only an `AbortError` is reported as a
      timeout. `AbortSignal.timeout` rejects with a `TimeoutError`, so a
      timed-out fetch is reported as a server error. */
  function ThrownReplyAsWritten(errorName: string): (r: Reply)
    ensures r.Failure? && r.status in {500, 504}
    ensures r.status == 504 <==> errorName == "AbortError"
  {
    if errorName == "AbortError" then Failure(504, TimedOut)
    else Failure(500, ServerError)
  }

  /** The catch block as evidently intended, in agreement with the
      authenticated OGP action: both abort error names are timeouts. */
  function ThrownReply(errorName: string): (r: Reply)
    ensures r.Failure? && r.status in {500, 504}
    ensures r.status == 504 <==> errorName == "AbortError" || errorName == "TimeoutError"
    ensures r.status == 504 ==> r.error == TimedOut
    ensures r.status == 500 ==> r.error == ServerError
  {
    if errorName == "AbortError" || errorName == "TimeoutError" then Failure(504, TimedOut)
    else Failure(500, ServerError)
  }

  /** The input that separates the two: the error the five-second timeout
      actually raises. */
  lemma TimeoutErrorMisreported()
    ensures ThrownReplyAsWritten("TimeoutError") == Failure(500, ServerError)
    ensures ThrownReply("TimeoutError") == Failure(504, TimedOut)
  {
  }

  /** The two catch blocks differ only on `TimeoutError`. */
  lemma ThrownRepliesDifferOnlyOnTimeout(errorName: string)
    ensures ThrownReply(errorName) != ThrownReplyAsWritten(errorName) <==> errorName == "TimeoutError"
  {
  }

  /** The handler with its catch block as a parameter. A non-ok response
      is passed on with its own status; when the Fetch standard refuses that
      status, building the reply throws inside the `try`. */
  function Handle(url: Option<string>, isUrl: string -> bool, net: NetOutcome, catchBlock: string -> Reply): Reply {
    if !Truthy(url) then Failure(400, MissingUrl)
    else if !isUrl(url.value) then Failure(400, InvalidUrl)
    else match net
      case Response(status, statusText, body) =>
        if IsOk(status) then Success(RouteExtract(body))
        else if CanRespondWith(status) then Failure(status, FetchFailed(statusText))
        else catchBlock(ResponseInitError(status))
      case Thrown(name) => catchBlock(name)
  }

  /** `GET /api/ogp?url=<url>` with the corrected catch block; `url` is the
      query parameter (absent when missing), `isUrl` whether `new URL(..)`
      accepts a string, and `net` what fetching and reading the page
      produced. */
  function Get(url: Option<string>, isUrl: string -> bool, net: NetOutcome): (r: Reply)
    ensures !Truthy(url) ==> r == Failure(400, MissingUrl)
    ensures Truthy(url) && !isUrl(url.value) ==> r == Failure(400, InvalidUrl)
    ensures r.Success? <==> Truthy(url) && isUrl(url.value) && net.Response? && IsOk(net.status)
    ensures r.Success? ==> r.data == RouteExtract(net.body) && r.data.ogTitle.Some?
    ensures (Truthy(url) && isUrl(url.value) && net.Response? && !IsOk(net.status) && CanRespondWith(net.status))
              ==> r == Failure(net.status, FetchFailed(net.statusText))
    ensures (Truthy(url) && isUrl(url.value) && net.Response? && !IsOk(net.status) && !CanRespondWith(net.status))
              ==> r == Failure(500, ServerError)
    ensures (Truthy(url) && isUrl(url.value) && net.Thrown? && net.errorName in {"AbortError", "TimeoutError"})
              ==> r == Failure(504, TimedOut)
    ensures (Truthy(url) && isUrl(url.value) && net.Thrown? && net.errorName !in {"AbortError", "TimeoutError"})
              ==> r == Failure(500, ServerError)
  {
    Handle(url, isUrl, net, ThrownReply)
  }

  /** The route as written: it differs from `Get` only on a valid URL whose
      fetch timed out, which it answers with 500. */
  function GetAsWritten(url: Option<string>, isUrl: string -> bool, net: NetOutcome): (r: Reply)
    ensures (Truthy(url) && isUrl(url.value) && net == Thrown("TimeoutError")) ==> r == Failure(500, ServerError)
    ensures !(Truthy(url) && isUrl(url.value) && net == Thrown("TimeoutError")) ==> r == Get(url, isUrl, net)
  {
    Handle(url, isUrl, net, ThrownReplyAsWritten)
  }

  /** A missing or unparsable `url` is answered before any fetch: the reply
      does not depend on the network. */
  lemma BadUrlNeverFetches(url: Option<string>, isUrl: string -> bool, n1: NetOutcome, n2: NetOutcome)
    requires !Truthy(url) || !isUrl(url.value)
    ensures Get(url, isUrl, n1) == Get(url, isUrl, n2)
    ensures StatusOf(Get(url, isUrl, n1)) == 400
  {
  }

  /** Every reply status is 200, 400, 500, 504 or the upstream's own
      non-2xx status, and always one a response may carry. */
  lemma GetStatuses(url: Option<string>, isUrl: string -> bool, net: NetOutcome)
    ensures var s := StatusOf(Get(url, isUrl, net));
            s in {200, 400, 500, 504} || (net.Response? && !IsOk(net.status) && s == net.status)
    ensures CanRespondWith(StatusOf(Get(url, isUrl, net)))
  {
  }
}

=== FILE: options.dfy ===
/** Optional values: JavaScript's `undefined` (and, where a field allows it,
    `null`) is `None`. */
module Options {

  datatype Option<+T> = None | Some(value: T) {

    /** The wrapped value, or `default` when absent (`x ?? default`). */
    function GetOr(default: T): T {
      match this
      case Some(v) => v
      case None => default
    }
  }
}

=== FILE: ordering.dfy ===
/** JavaScript's default `Array.prototype.sort` order on strings
    (character-by-character lexicographic order) and the sorted,
    duplicate-free tag lists built with `Array.from(new Set(..)).sort()`. */
module Ordering {

  /** `a` sorts strictly before `b`: a proper prefix sorts first, otherwise
      the first differing character decides. */
  predicate Lt(a: string, b: string)
    decreases |a|
  {
    if |a| == 0 then |b| > 0
    else |b| > 0 && (a[0] < b[0] || (a[0] == b[0] && Lt(a[1..], b[1..])))
  }

  lemma {:induction false} LtIrreflexive(a: string)
    ensures !Lt(a, a)
    decreases |a|
  {
    if |a| > 0 {
      LtIrreflexive(a[1..]);
    }
  }

  lemma {:induction false} LtTransitive(a: string, b: string, c: string)
    requires Lt(a, b) && Lt(b, c)
    ensures Lt(a, c)
    decreases |a|
  {
    if |a| > 0 && a[0] == b[0] && b[0] == c[0] {
      LtTransitive(a[1..], b[1..], c[1..]);
    }
  }

  lemma {:induction false} LtTotal(a: string, b: string)
    ensures a == b || Lt(a, b) || Lt(b, a)
    decreases |a|
  {
    if |a| > 0 && |b| > 0 && a[0] == b[0] {
      LtTotal(a[1..], b[1..]);
      if a[1..] == b[1..] {
        assert a == [a[0]] + a[1..] && b == [b[0]] + b[1..];
      }
    }
  }

  /** Ascending with no repeats. */
  predicate StrictlySorted(s: seq<string>) {
    forall i, j :: 0 <= i < j < |s| ==> Lt(s[i], s[j])
  }

  /** A strictly sorted list is duplicate-free. */
  lemma StrictlySortedNoDup(s: seq<string>)
    requires StrictlySorted(s)
    ensures forall i, j :: 0 <= i < j < |s| ==> s[i] != s[j]
  {
    forall i, j | 0 <= i < j < |s| ensures s[i] != s[j] {
      LtIrreflexive(s[i]);
    }
  }

  /** Adds `x` to a strictly sorted list, keeping it strictly sorted. */
  function Insert(x: string, s: seq<string>): (r: seq<string>)
    requires StrictlySorted(s)
    ensures StrictlySorted(r)
    ensures forall y :: y in r <==> y in s || y == x
    decreases |s|
  {
    if |s| == 0 then [x]
    else if x == s[0] then s
    else if Lt(x, s[0]) then
      assert forall j :: 0 < j < |s| ==> Lt(x, s[j]) by {
        forall j | 0 < j < |s| ensures Lt(x, s[j]) { LtTransitive(x, s[0], s[j]); }
      }
      [x] + s
    else
      var t := Insert(x, s[1..]);
      LtTotal(x, s[0]);
      assert forall y :: y in t ==> Lt(s[0], y);
      [s[0]] + t
  }

  /** The sorted, duplicate-free list of the strings in `xs`: the result of
      `Array.from(new Set(xs)).sort()`. */
  function SortedSet(xs: seq<string>): (r: seq<string>)
    ensures StrictlySorted(r)
    ensures forall y :: y in r <==> y in xs
    decreases |xs|
  {
    if |xs| == 0 then []
    else Insert(xs[|xs| - 1], SortedSet(xs[..|xs| - 1]))
  }

  /** A strictly sorted list is determined by its elements: any sort of a
      de-duplicated list yields exactly `SortedSet`. */
  lemma {:induction false} StrictlySortedUnique(a: seq<string>, b: seq<string>)
    requires StrictlySorted(a) && StrictlySorted(b)
    requires forall y :: y in a <==> y in b
    ensures a == b
    decreases |a|
  {
    assert |b| > 0 ==> b[0] in a;
    if |a| == 0 {
    } else {
      assert a[0] in b;
      assert b[0] in a;
      if a[0] != b[0] {
        var i :| 0 <= i < |b| && b[i] == a[0];
        var j :| 0 <= j < |a| && a[j] == b[0];
        // a[0] is a's least element and b[0] is b's least element
        assert Lt(a[0], b[0]) by { assert 0 < j; }
        assert Lt(b[0], a[0]) by { assert 0 < i; }
        LtTransitive(a[0], b[0], a[0]);
        LtIrreflexive(a[0]);
      }
      forall y ensures y in a[1..] <==> y in b[1..] {
        StrictlySortedNoDup(a);
        StrictlySortedNoDup(b);
        if y in a[1..] {
          var k :| 1 <= k < |a| && a[k] == y;
          assert y in b && y != b[0];
        }
        if y in b[1..] {
          var k :| 1 <= k < |b| && b[k] == y;
          assert y in a && y != a[0];
        }
      }
      StrictlySortedUnique(a[1..], b[1..]);
      assert a == [a[0]] + a[1..] && b == [b[0]] + b[1..];
    }
  }
}

=== FILE: schema.dfy ===
/** `BookmarkFormSchema`: the validator the HTTP API applies to a bookmark
    payload, as a partial parse from JSON-like values to form data. */
module BookmarkSchema {
  import opened Options

  /** A JSON value, as far as the schema tells values apart. */
  datatype Value = Undefined | Null | Str(s: string) | Arr(items: seq<Value>) | OtherValue

  /** The four fields of the payload object the schema reads. */
  datatype Payload = Payload(url: Value, title: Value, memo: Value, tags: Value)

  /** The schema's output type. */
  datatype FormData = FormData(url: string, title: string, memo: Option<string>, tags: Option<seq<string>>)

  const MaxTitle := 200
  const MaxMemo := 1000
  const MaxTags := 10
  const MaxTag := 50

  predicate ValidTag(t: string) {
    1 <= |t| <= MaxTag
  }

  /** The constraints of the schema; `isUrl` stands for `z.string().url()`. */
  predicate Valid(d: FormData, isUrl: string -> bool) {
    && isUrl(d.url)
    && 1 <= |d.title| <= MaxTitle
    && (d.memo.Some? ==> |d.memo.value| <= MaxMemo)
    && (d.tags.Some? ==> |d.tags.value| <= MaxTags && forall i :: 0 <= i < |d.tags.value| ==> ValidTag(d.tags.value[i]))
  }

  /** The JSON form of a tag list. */
  function Strs(ts: seq<string>): (r: seq<Value>)
    ensures |r| == |ts| && forall i :: 0 <= i < |ts| ==> r[i] == Str(ts[i])
  {
    seq(|ts|, i requires 0 <= i < |ts| => Str(ts[i]))
  }

  /** The JSON form of form data: a null memo, an undefined tag list. */
  function Embed(d: FormData): Payload {
    Payload(
      Str(d.url),
      Str(d.title),
      match d.memo case None => Null case Some(m) => Str(m),
      match d.tags case None => Undefined case Some(ts) => Arr(Strs(ts)))
  }

  /** Each item a string of 1 to 50 characters. */
  function ParseTagItems(items: seq<Value>): (r: Option<seq<string>>)
    ensures r.Some? ==>
              |r.value| == |items| && forall i :: 0 <= i < |items| ==> items[i] == Str(r.value[i]) && ValidTag(r.value[i])
    ensures r.None? ==> exists i :: 0 <= i < |items| && !(items[i].Str? && ValidTag(items[i].s))
    decreases |items|
  {
    if |items| == 0 then Some([])
    else if !(items[0].Str? && ValidTag(items[0].s)) then None
    else
      match ParseTagItems(items[1..])
      case None =>
        assert forall i :: 0 <= i < |items| - 1 ==> items[1..][i] == items[i + 1];
        None
      case Some(rest) =>
        var ts := [items[0].s] + rest;
        assert forall i :: 1 <= i < |ts| ==> ts[i] == rest[i - 1] && items[i] == items[1..][i - 1];
        Some(ts)
  }

  /** `BookmarkFormSchema.parse`: form data when every constraint holds,
      None (a `ZodError`) otherwise. The memo must be a string or null; an
      absent memo is rejected. */
  function Parse(p: Payload, isUrl: string -> bool): (r: Option<FormData>)
    ensures r.Some? ==> Valid(r.value, isUrl) && Embed(r.value) == p
    ensures p.memo == Undefined ==> r.None?
    ensures p.tags == Null ==> r.None?
  {
    if !(p.url.Str? && isUrl(p.url.s)) then None
    else if !(p.title.Str? && 1 <= |p.title.s| <= MaxTitle) then None
    else
      var memo: Option<Option<string>> :=
        match p.memo
        case Null => Some(None)
        case Str(m) => if |m| <= MaxMemo then Some(Some(m)) else None
        case _ => None;
      var tags: Option<Option<seq<string>>> :=
        match p.tags
        case Undefined => Some(None)
        case Arr(items) =>
          if |items| > MaxTags then None
          else
            (match ParseTagItems(items)
             case None => None
             case Some(ts) =>
               assert Strs(ts) == items;
               Some(Some(ts)))
        case _ => None;
      if memo.None? || tags.None? then None
      else Some(FormData(p.url.s, p.title.s, memo.value, tags.value))
  }

  /** Every valid form datum is accepted in its JSON form and read back
      unchanged. */
  lemma {:induction false} ParseEmbed(d: FormData, isUrl: string -> bool)
    requires Valid(d, isUrl)
    ensures Parse(Embed(d), isUrl) == Some(d)
  {
    if d.tags.Some? {
      ParseTagItemsStrs(d.tags.value);
    }
  }

  lemma {:induction false} ParseTagItemsStrs(ts: seq<string>)
    requires forall i :: 0 <= i < |ts| ==> ValidTag(ts[i])
    ensures ParseTagItems(Strs(ts)) == Some(ts)
    decreases |ts|
  {
    if |ts| > 0 {
      assert Strs(ts)[1..] == Strs(ts[1..]);
      ParseTagItemsStrs(ts[1..]);
      assert [ts[0]] + ts[1..] == ts;
    }
  }

  /** The parse is exact: it accepts precisely the JSON forms of valid data. */
  lemma ParseExact(p: Payload, d: FormData, isUrl: string -> bool)
    ensures Parse(p, isUrl) == Some(d) <==> p == Embed(d) && Valid(d, isUrl)
  {
    if p == Embed(d) && Valid(d, isUrl) {
      ParseEmbed(d, isUrl);
    }
  }
}

=== FILE: seqs.dfy ===
/** Generic sequence searches and filters used by the tables and the
    metadata extractors. */
module Seqs {
  import opened Options

  /** Index of the first element satisfying `p` (what `.first()` on a query
      or `$(selector)` on a document picks). */
  function FirstIndex<T>(s: seq<T>, p: T -> bool): (r: Option<nat>)
    ensures r.Some? ==> r.value < |s| && p(s[r.value])
    ensures r.Some? ==> forall j :: 0 <= j < r.value ==> !p(s[j])
    ensures r.None? ==> forall j :: 0 <= j < |s| ==> !p(s[j])
    decreases |s|
  {
    if |s| == 0 then None
    else if p(s[0]) then Some(0)
    else
      match FirstIndex(s[1..], p)
      case None => None
      case Some(i) => Some(i + 1)
  }

  /** Index of the last element satisfying `p`. */
  function LastIndex<T>(s: seq<T>, p: T -> bool): (r: Option<nat>)
    ensures r.Some? ==> r.value < |s| && p(s[r.value])
    ensures r.Some? ==> forall j :: r.value < j < |s| ==> !p(s[j])
    ensures r.None? ==> forall j :: 0 <= j < |s| ==> !p(s[j])
    decreases |s|
  {
    if |s| == 0 then None
    else if p(s[|s| - 1]) then Some(|s| - 1)
    else LastIndex(s[..|s| - 1], p)
  }

  /** The first element satisfying `p`, if any. */
  function First<T>(s: seq<T>, p: T -> bool): Option<T> {
    match FirstIndex(s, p)
    case None => None
    case Some(i) => Some(s[i])
  }

  /** `Array.prototype.filter`: the elements satisfying `p`, in order. */
  function Filter<T(!new)>(s: seq<T>, p: T -> bool): (r: seq<T>)
    ensures |r| <= |s|
    ensures forall x :: x in r <==> x in s && p(x)
    decreases |s|
  {
    if |s| == 0 then []
    else if p(s[0]) then [s[0]] + Filter(s[1..], p)
    else Filter(s[1..], p)
  }

  /** Filtering distributes over concatenation, so it keeps relative order. */
  lemma {:induction false} FilterConcat<T(!new)>(a: seq<T>, b: seq<T>, p: T -> bool)
    ensures Filter(a + b, p) == Filter(a, p) + Filter(b, p)
    decreases |a|
  {
    if |a| == 0 {
      assert a + b == b;
    } else {
      assert (a + b)[1..] == a[1..] + b;
      FilterConcat(a[1..], b, p);
    }
  }

  /** Filtering with a predicate every element satisfies changes nothing. */
  lemma {:induction false} FilterAll<T(!new)>(s: seq<T>, p: T -> bool)
    requires forall x :: x in s ==> p(x)
    ensures Filter(s, p) == s
    decreases |s|
  {
    if |s| > 0 {
      FilterAll(s[1..], p);
    }
  }

  /** The elements in reverse order (a descending-creation-time listing of a
      table kept in insertion order). */
  function Reverse<T(!new)>(s: seq<T>): (r: seq<T>)
    ensures |r| == |s|
    ensures forall i :: 0 <= i < |s| ==> r[i] == s[|s| - 1 - i]
    ensures forall x :: x in r <==> x in s
    decreases |s|
  {
    if |s| == 0 then [] else Reverse(s[1..]) + [s[0]]
  }
  /** Filtering commutes with reversal: the kept elements come out in the
      reverse of their original order. */
  lemma {:induction false} FilterReverse<T(!new)>(s: seq<T>, p: T -> bool)
    ensures Filter(Reverse(s), p) == Reverse(Filter(s, p))
    decreases |s|
  {
    if |s| > 0 {
      FilterReverse(s[1..], p);
      FilterConcat(Reverse(s[1..]), [s[0]], p);
      assert [s[0]][1..] == [];
      if p(s[0]) {
        var t := Filter(s[1..], p);
        assert Filter(s, p) == [s[0]] + t;
        assert ([s[0]] + t)[1..] == t;
        assert Reverse([s[0]] + t) == Reverse(t) + [s[0]];
      }
    }
  }


  /** No two positions share a key. */
  ghost predicate DistinctBy<T, K>(s: seq<T>, key: T -> K) {
    forall i, j :: 0 <= i < j < |s| ==> key(s[i]) != key(s[j])
  }

  /** Removing elements keeps the keys distinct. */
  lemma {:induction false} DistinctByFilter<T(!new), K>(s: seq<T>, key: T -> K, p: T -> bool)
    requires DistinctBy(s, key)
    ensures DistinctBy(Filter(s, p), key)
    decreases |s|
  {
    if |s| > 0 {
      DistinctByFilter(s[1..], key, p);
      if p(s[0]) {
        var r := [s[0]] + Filter(s[1..], p);
        assert forall j :: 0 < j < |r| ==> r[j] in s[1..];
        assert forall j :: 0 < j < |r| ==> key(r[j]) != key(s[0]);
      }
    }
  }

  /** No element occurs twice. */
  predicate NoDup<T(==)>(s: seq<T>) {
    forall i, j :: 0 <= i < j < |s| ==> s[i] != s[j]
  }
}

=== FILE: sidebar.dfy ===
/** The tag list of the application sidebar: one entry per distinct tag of
    the signed-in user's bookmarks, in ascending order, each linking to the
    tag's bookmark list. */
module Sidebar {
  import opened Options
  import opened JsText
  import opened Store
  import Ordering
  import Bookmarks
  import Tags

  /** An entry; `lastTag` is the text the emoji is looked up by. */
  datatype TagEntry = TagEntry(name: string, url: string, lastTag: string)

  const ListPath: string := "/bookmarks/list/"

  function Entry(tag: string): (r: TagEntry)
    ensures r.name == tag && r.url == ListPath + tag
    ensures r.url[..|ListPath|] == ListPath && r.url[|ListPath|..] == tag
  {
    TagEntry(tag, ListPath + tag, LastSegment(tag))
  }

  /** The names of the entries, in order. */
  function Names(es: seq<TagEntry>): (r: seq<string>)
    ensures |r| == |es| && forall i :: 0 <= i < |es| ==> r[i] == es[i].name
  {
    seq(|es|, i requires 0 <= i < |es| => es[i].name)
  }

  /** The entries derived from the `getBookmarks` query: `None` is a result
      that is still loading or null, which counts as no bookmarks. */
  function TagEntries(query: Option<seq<Bookmark>>): (r: seq<TagEntry>)
    ensures query.None? ==> r == []
    ensures Ordering.StrictlySorted(Names(r))
    ensures forall t :: t in Names(r) <==> query.Some? && exists b :: b in query.value && t in b.tags
    ensures forall i :: 0 <= i < |r| ==> r[i] == Entry(r[i].name)
  {
    var tags := Ordering.SortedSet(Bookmarks.AllTags(query.GetOr([])));
    var r := seq(|tags|, i requires 0 <= i < |tags| => Entry(tags[i]));
    assert Names(r) == tags;
    r
  }

  /** The entry's last segment is the part of the tag after its final '/',
      the whole tag when it has none. */
  lemma LastTagIsFinalSegment(e: TagEntry, query: Option<seq<Bookmark>>)
    requires e in TagEntries(query)
    ensures '/' !in e.lastTag
    ensures exists k :: 0 <= k <= |e.name| && e.name[k..] == e.lastTag && (k == 0 || e.name[k - 1] == '/')
    ensures '/' !in e.name ==> e.lastTag == e.name
  {
    LastSegmentIsTail(e.name);
  }

  /** The sidebar lists exactly the tags of the tag page: for a signed-in
      user the names are `getMyAllTags`. */
  lemma SidebarMatchesMyTags(db: Db, auth: Option<Identity>)
    requires Caller(db, auth).Ok?
    ensures Names(TagEntries(Bookmarks.GetBookmarks(db, auth))) == Tags.GetMyAllTags(db, auth)
  {
    Ordering.StrictlySortedUnique(Names(TagEntries(Bookmarks.GetBookmarks(db, auth))), Tags.GetMyAllTags(db, auth));
  }
}

=== FILE: store.dfy ===
/** The four Convex tables of the schema as sequences in insertion order,
    the caller identity, and the lookups every query and mutation shares. */
module Store {
  import opened Options
  import opened JsText
  import Seqs

  /** A document id. One counter serves every table, so ids never clash. */
  type Id = nat

  datatype User = User(
    id: Id,
    tokenIdentifier: string,
    email: Option<string>,
    name: Option<string>,
    pictureUrl: Option<string>)

  datatype Bookmark = Bookmark(
    id: Id,
    userId: Id,
    url: string,
    title: string,
    memo: Option<string>,
    tags: seq<string>)

  datatype ApiKey = ApiKey(id: Id, userId: Id, hashedApiKey: string, name: Option<string>)

  datatype SharedTag = SharedTag(id: Id, userId: Id, tagName: string, shareId: string, isPublic: bool)

  datatype Db = Db(
    users: seq<User>,
    bookmarks: seq<Bookmark>,
    apiKeys: seq<ApiKey>,
    sharedTags: seq<SharedTag>,
    nextId: Id)

  /** What `ctx.auth.getUserIdentity()` returns for a signed-in caller. */
  datatype Identity = Identity(subject: string, email: Option<string>, name: Option<string>, pictureUrl: Option<string>)

  /** The errors the mutations throw. */
  datatype Error = NotAuthenticated | UserNotFound | NotPermitted

  datatype Result<T> = Ok(value: T) | Err(error: Error)

  function UserId(u: User): Id { u.id }
  function BookmarkId(b: Bookmark): Id { b.id }
  function ApiKeyId(k: ApiKey): Id { k.id }
  function SharedTagId(s: SharedTag): Id { s.id }

  /** Every key is below `next` and no key occurs twice. */
  ghost predicate KeysFresh<T>(s: seq<T>, key: T -> Id, next: Id) {
    && (forall i :: 0 <= i < |s| ==> key(s[i]) < next)
    && Seqs.DistinctBy(s, key)
  }

  /** Ids are unique within each table and below the counter. */
  ghost predicate Wf(db: Db) {
    && KeysFresh(db.users, UserId, db.nextId)
    && KeysFresh(db.bookmarks, BookmarkId, db.nextId)
    && KeysFresh(db.apiKeys, ApiKeyId, db.nextId)
    && KeysFresh(db.sharedTags, SharedTagId, db.nextId)
  }

  lemma KeysFreshAppend<T>(s: seq<T>, key: T -> Id, next: Id, x: T)
    requires KeysFresh(s, key, next) && key(x) == next
    ensures KeysFresh(s + [x], key, next + 1)
  {
    assert forall i :: 0 <= i < |s| ==> (s + [x])[i] == s[i];
  }

  lemma KeysFreshGrow<T>(s: seq<T>, key: T -> Id, next: Id, next': Id)
    requires KeysFresh(s, key, next) && next <= next'
    ensures KeysFresh(s, key, next')
  {
  }

  /** With unique keys, two rows with the same key are the same row. */
  lemma KeysFreshUnique<T>(s: seq<T>, key: T -> Id, next: Id, x: T, y: T)
    requires KeysFresh(s, key, next) && x in s && y in s && key(x) == key(y)
    ensures x == y
  {
    var i :| 0 <= i < |s| && s[i] == x;
    var j :| 0 <= j < |s| && s[j] == y;
    assert key(s[i]) == key(s[j]);
  }

  /** Removing elements keeps the keys unique. */
  lemma KeysFreshFilter<T(!new)>(s: seq<T>, key: T -> Id, next: Id, p: T -> bool)
    requires KeysFresh(s, key, next)
    ensures KeysFresh(Seqs.Filter(s, p), key, next)
  {
    Seqs.DistinctByFilter(s, key, p);
    var r := Seqs.Filter(s, p);
    assert forall i :: 0 <= i < |r| ==> r[i] in s;
  }

  /** Rewriting elements in place without touching their keys keeps them
      unique. */
  lemma KeysFreshPointwise<T>(s: seq<T>, t: seq<T>, key: T -> Id, next: Id)
    requires KeysFresh(s, key, next)
    requires |t| == |s| && forall i :: 0 <= i < |s| ==> key(t[i]) == key(s[i])
    ensures KeysFresh(t, key, next)
  {
  }

  /** `.withIndex('by_tokenIdentifier', q => q.eq('tokenIdentifier', subject)).first()`. */
  function FindUser(db: Db, subject: string): (r: Option<User>)
    ensures r.Some? ==> r.value in db.users && r.value.tokenIdentifier == subject
    ensures r.None? <==> forall u :: u in db.users ==> u.tokenIdentifier != subject
    ensures r.Some? ==> (exists i :: 0 <= i < |db.users| && db.users[i] == r.value
                          && forall j :: 0 <= j < i ==> db.users[j].tokenIdentifier != subject)
  {
    match Seqs.FirstIndex(db.users, (u: User) => u.tokenIdentifier == subject)
    case None => None
    case Some(i) => Some(db.users[i])
  }

  /** The common preamble: the caller must be signed in and have a row in
      `users`. */
  function Caller(db: Db, auth: Option<Identity>): (r: Result<User>)
    ensures auth.None? ==> r == Err(NotAuthenticated)
    ensures auth.Some? && FindUser(db, auth.value.subject).None? ==> r == Err(UserNotFound)
    ensures r.Ok? <==> auth.Some? && FindUser(db, auth.value.subject).Some?
    ensures r.Ok? ==> r.value in db.users && r.value.tokenIdentifier == auth.value.subject
  {
    match auth
    case None => Err(NotAuthenticated)
    case Some(identity) =>
      match FindUser(db, identity.subject)
      case None => Err(UserNotFound)
      case Some(user) => Ok(user)
  }

  /** `ctx.db.get(id)` on the bookmarks table. */
  function GetBookmarkDoc(db: Db, id: Id): (r: Option<Bookmark>)
    ensures r.Some? ==> r.value in db.bookmarks && r.value.id == id
    ensures r.None? <==> forall b :: b in db.bookmarks ==> b.id != id
  {
    Seqs.First(db.bookmarks, b => BookmarkId(b) == id)
  }

  /** `ctx.db.get(id)` on the users table. */
  function GetUserDoc(db: Db, id: Id): (r: Option<User>)
    ensures r.Some? ==> r.value in db.users && r.value.id == id
    ensures r.None? <==> forall u :: u in db.users ==> u.id != id
  {
    Seqs.First(db.users, u => UserId(u) == id)
  }

  /** `ctx.db.get(id)` on the apiKeys table. */
  function GetApiKeyDoc(db: Db, id: Id): (r: Option<ApiKey>)
    ensures r.Some? ==> r.value in db.apiKeys && r.value.id == id
    ensures r.None? <==> forall k :: k in db.apiKeys ==> k.id != id
  {
    Seqs.First(db.apiKeys, k => ApiKeyId(k) == id)
  }

  /** `identity.x || undefined`: an empty string becomes absent. */
  function NonEmpty(o: Option<string>): (r: Option<string>)
    ensures r.Some? <==> Truthy(o)
    ensures r.Some? ==> r == o
  {
    Or(o, None)
  }
}

=== FILE: tags.dfy ===
/** The `sharedTags` queries and mutations: publishing a tag under a random
    share id, withdrawing it, and the public read of a shared tag. */
module Tags {
  import opened Options
  import opened Store
  import Seqs
  import Ordering
  import Bookmarks

  /** The alphabet of share ids: digits and lower-case ASCII letters. */
  predicate IsShareChar(c: char) {
    ('0' <= c <= '9') || ('a' <= c <= 'z')
  }

  /** What `customAlphabet('0123456789abcdefghijklmnopqrstuvwxyz', 12)()`
      can return. */
  predicate IsShareId(s: string) {
    |s| == 12 && forall i :: 0 <= i < |s| ==> IsShareChar(s[i])
  }

  function ShareKey(s: SharedTag): (Id, string) {
    (s.userId, s.tagName)
  }

  /** `.withIndex('by_user_tag', q => q.eq('userId', uid).eq('tagName', tagName)).first()`,
      as a position in the table. */
  function FindShare(db: Db, uid: Id, tagName: string): (r: Option<nat>)
    ensures r.Some? ==> r.value < |db.sharedTags| && ShareKey(db.sharedTags[r.value]) == (uid, tagName)
    ensures r.None? <==> forall s :: s in db.sharedTags ==> ShareKey(s) != (uid, tagName)
  {
    Seqs.FirstIndex(db.sharedTags, (s: SharedTag) => ShareKey(s) == (uid, tagName))
  }

  /** At most one entry per (user, tag): the invariant the two mutations keep. */
  ghost predicate UniqueShares(db: Db) {
    Seqs.DistinctBy(db.sharedTags, ShareKey)
  }

  /** `getMySharedTags`: the caller's entries, empty when signed out or when
      the caller has no user row. */
  function GetMySharedTags(db: Db, auth: Option<Identity>): (r: seq<SharedTag>)
    ensures Caller(db, auth).Err? ==> r == []
    ensures Caller(db, auth).Ok? ==>
              forall s :: s in r <==> s in db.sharedTags && s.userId == Caller(db, auth).value.id
  {
    match Caller(db, auth)
    case Err(_) => []
    case Ok(user) => Seqs.Filter(db.sharedTags, (s: SharedTag) => s.userId == user.id)
  }

  /** `shareTag`: throws when signed out or without a user row. An existing
      entry for (caller, tag) is made public and its id returned; otherwise
      a public entry with the fresh id `shareId` is inserted. */
  function ShareTag(db: Db, auth: Option<Identity>, tagName: string, shareId: string): (r: Result<(Db, string)>)
    requires IsShareId(shareId)
    ensures Caller(db, auth).Err? ==> r == Err(Caller(db, auth).error)
    ensures r.Ok? <==> Caller(db, auth).Ok?
    ensures r.Ok? ==> r.value.0.(sharedTags := db.sharedTags, nextId := db.nextId) == db
    ensures r.Ok? && FindShare(db, Caller(db, auth).value.id, tagName).Some? ==>
              var i := FindShare(db, Caller(db, auth).value.id, tagName).value;
              && r.value.1 == db.sharedTags[i].shareId
              && r.value.0.sharedTags == db.sharedTags[i := db.sharedTags[i].(isPublic := true)]
              && r.value.0.nextId == db.nextId
    ensures r.Ok? && FindShare(db, Caller(db, auth).value.id, tagName).None? ==>
              && r.value.1 == shareId
              && r.value.0.sharedTags
                 == db.sharedTags + [SharedTag(db.nextId, Caller(db, auth).value.id, tagName, shareId, true)]
    ensures r.Ok? && Wf(db) ==> Wf(r.value.0)
    ensures r.Ok? && UniqueShares(db) ==> UniqueShares(r.value.0)
  {
    match Caller(db, auth)
    case Err(e) => Err(e)
    case Ok(user) =>
      match FindShare(db, user.id, tagName)
      case Some(i) =>
        var existing := db.sharedTags[i];
        var shares := db.sharedTags[i := existing.(isPublic := true)];
        assert Wf(db) ==> Wf(db.(sharedTags := shares)) by {
          if Wf(db) {
            KeysFreshPointwise(db.sharedTags, shares, SharedTagId, db.nextId);
          }
        }
        assert forall j :: 0 <= j < |shares| ==> ShareKey(shares[j]) == ShareKey(db.sharedTags[j]);
        if existing.isPublic then
          assert shares == db.sharedTags;
          Ok((db, existing.shareId))
        else
          Ok((db.(sharedTags := shares), existing.shareId))
      case None =>
        var entry := SharedTag(db.nextId, user.id, tagName, shareId, true);
        var db' := db.(sharedTags := db.sharedTags + [entry], nextId := db.nextId + 1);
        assert Wf(db) ==> Wf(db') by {
          if Wf(db) {
            KeysFreshGrow(db.users, UserId, db.nextId, db'.nextId);
            KeysFreshGrow(db.bookmarks, BookmarkId, db.nextId, db'.nextId);
            KeysFreshGrow(db.apiKeys, ApiKeyId, db.nextId, db'.nextId);
            KeysFreshAppend(db.sharedTags, SharedTagId, db.nextId, entry);
          }
        }
        assert forall j :: 0 <= j < |db.sharedTags| ==> db'.sharedTags[j] == db.sharedTags[j];
        assert forall j :: 0 <= j < |db.sharedTags| ==> db.sharedTags[j] in db.sharedTags;
        Ok((db', shareId))
  }

  /** `unshareTag`: throws when signed out or without a user row; deletes the
      (caller, tag) entry when there is one and otherwise changes nothing. */
  function UnshareTag(db: Db, auth: Option<Identity>, tagName: string): (r: Result<Db>)
    ensures Caller(db, auth).Err? ==> r == Err(Caller(db, auth).error)
    ensures r.Ok? <==> Caller(db, auth).Ok?
    ensures r.Ok? ==> r.value.(sharedTags := db.sharedTags) == db
    ensures r.Ok? && FindShare(db, Caller(db, auth).value.id, tagName).None? ==> r.value == db
    ensures r.Ok? && FindShare(db, Caller(db, auth).value.id, tagName).Some? ==>
              var gone := db.sharedTags[FindShare(db, Caller(db, auth).value.id, tagName).value];
              forall s :: s in r.value.sharedTags <==> s in db.sharedTags && s.id != gone.id
    ensures r.Ok? && Wf(db) ==> Wf(r.value)
    ensures r.Ok? && UniqueShares(db) ==> UniqueShares(r.value)
  {
    match Caller(db, auth)
    case Err(e) => Err(e)
    case Ok(user) =>
      match FindShare(db, user.id, tagName)
      case None => Ok(db)
      case Some(i) =>
        var gone := db.sharedTags[i].id;
        var p := (s: SharedTag) => s.id != gone;
        var db' := db.(sharedTags := Seqs.Filter(db.sharedTags, p));
        assert Wf(db) ==> Wf(db') by {
          if Wf(db) {
            KeysFreshFilter(db.sharedTags, SharedTagId, db.nextId, p);
          }
        }
        assert UniqueShares(db) ==> UniqueShares(db') by {
          if UniqueShares(db) {
            Seqs.DistinctByFilter(db.sharedTags, ShareKey, p);
          }
        }
        Ok(db')
  }

  /** `isTagShared`: whether the caller has an entry for the tag, public or
      not; false when signed out or without a user row. */
  function IsTagShared(db: Db, auth: Option<Identity>, tagName: string): (r: bool)
    ensures r <==> Caller(db, auth).Ok?
                   && exists s :: s in db.sharedTags && ShareKey(s) == (Caller(db, auth).value.id, tagName)
  {
    match Caller(db, auth)
    case Err(_) => false
    case Ok(user) => FindShare(db, user.id, tagName).Some?
  }

  /** A successful share makes the tag shared, whichever branch it took. */
  lemma ShareThenShared(db: Db, auth: Option<Identity>, tagName: string, shareId: string)
    requires IsShareId(shareId)
    requires ShareTag(db, auth, tagName, shareId).Ok?
    ensures IsTagShared(ShareTag(db, auth, tagName, shareId).value.0, auth, tagName)
  {
    var db' := ShareTag(db, auth, tagName, shareId).value.0;
    var uid := Caller(db, auth).value.id;
    match FindShare(db, uid, tagName)
    case Some(i) =>
      assert db'.sharedTags[i] in db'.sharedTags;
    case None =>
      assert db'.sharedTags[|db.sharedTags|] in db'.sharedTags;
  }

  /** After a successful share, the caller's listing holds a public entry
      for the tag under the returned share id. */
  lemma ShareThenListed(db: Db, auth: Option<Identity>, tagName: string, shareId: string)
    requires IsShareId(shareId)
    ensures var r := ShareTag(db, auth, tagName, shareId);
            r.Ok? ==> exists s :: s in GetMySharedTags(r.value.0, auth)
                                   && s.tagName == tagName && s.shareId == r.value.1 && s.isPublic
  {
    var r := ShareTag(db, auth, tagName, shareId);
    if r.Ok? {
      var db' := r.value.0;
      assert db'.users == db.users;
      var uid := Caller(db, auth).value.id;
      match FindShare(db, uid, tagName)
      case Some(i) =>
        assert db'.sharedTags[i] in db'.sharedTags;
        assert db'.sharedTags[i] in GetMySharedTags(db', auth);
      case None =>
        assert db'.sharedTags[|db.sharedTags|] in db'.sharedTags;
        assert db'.sharedTags[|db.sharedTags|] in GetMySharedTags(db', auth);
    }
  }

  /** With at most one entry per (user, tag), a successful unshare leaves the
      tag unshared. */
  lemma UnshareThenNotShared(db: Db, auth: Option<Identity>, tagName: string)
    requires UniqueShares(db)
    requires UnshareTag(db, auth, tagName).Ok?
    ensures !IsTagShared(UnshareTag(db, auth, tagName).value, auth, tagName)
  {
    var db' := UnshareTag(db, auth, tagName).value;
    var uid := Caller(db, auth).value.id;
    match FindShare(db, uid, tagName)
    case None =>
    case Some(i) =>
      forall s | s in db'.sharedTags ensures ShareKey(s) != (uid, tagName) {
        var j :| 0 <= j < |db.sharedTags| && db.sharedTags[j] == s;
      }
  }

  /** Sharing twice returns the same id and the second call changes nothing. */
  lemma ShareIdempotent(db: Db, auth: Option<Identity>, tagName: string, id1: string, id2: string)
    requires IsShareId(id1) && IsShareId(id2)
    requires ShareTag(db, auth, tagName, id1).Ok?
    ensures var (db1, shared) := ShareTag(db, auth, tagName, id1).value;
            ShareTag(db1, auth, tagName, id2) == Ok((db1, shared))
  {
    var (db1, shared) := ShareTag(db, auth, tagName, id1).value;
    assert db1.users == db.users;
    var uid := Caller(db, auth).value.id;
    match FindShare(db, uid, tagName)
    case Some(i) =>
      assert ShareKey(db1.sharedTags[i]) == (uid, tagName);
    case None =>
      assert ShareKey(db1.sharedTags[|db.sharedTags|]) == (uid, tagName);
  }

  /** What a public share shows: the tag, the owner's bookmarks carrying it,
      and the owner's name when the owner row still exists. */
  datatype PublicShare = PublicShare(tagName: string, bookmarks: seq<Bookmark>, ownerName: Option<string>)

  /** Entry `i` is the first one with that share id (what `.first()` on the
      `by_shareId` index returns). */
  ghost predicate FirstShare(shares: seq<SharedTag>, shareId: string, i: int) {
    && 0 <= i < |shares| && shares[i].shareId == shareId
    && forall j :: 0 <= j < i ==> shares[j].shareId != shareId
  }

  /** `getPublicBookmarksByShareId`: null unless the first entry with that id
      is public; otherwise the owner's bookmarks whose tags include the tag,
      in insertion order (the `by_userId` index), and the owner's name when
      the owner row exists. */
  function GetPublicBookmarksByShareId(db: Db, shareId: string): (r: Option<PublicShare>)
    ensures (forall s :: s in db.sharedTags ==> s.shareId != shareId) ==> r.None?
    ensures forall i :: FirstShare(db.sharedTags, shareId, i) ==>
              var s := db.sharedTags[i];
              && (r.Some? <==> s.isPublic)
              && (r.Some? ==>
                    && r.value.tagName == s.tagName
                    && (forall b :: b in r.value.bookmarks <==>
                          b in db.bookmarks && b.userId == s.userId && s.tagName in b.tags)
                    && ((forall u :: u in db.users ==> u.id != s.userId) ==> r.value.ownerName.None?)
                    && (Wf(db) ==> forall u :: u in db.users && u.id == s.userId ==> r.value.ownerName == u.name))
  {
    match Seqs.FirstIndex(db.sharedTags, (s: SharedTag) => s.shareId == shareId)
    case None => None
    case Some(i) =>
      var info := db.sharedTags[i];
      if !info.isPublic then None
      else
        var owned := Bookmarks.Owned(db.bookmarks, info.userId);
        var shared := Seqs.Filter(owned, Bookmarks.Tagged(info.tagName));
        var ownerName := match GetUserDoc(db, info.userId) case None => None case Some(u) => u.name;
        assert Wf(db) ==> forall u :: u in db.users && u.id == info.userId ==> ownerName == u.name by {
          if Wf(db) {
            forall u | u in db.users && u.id == info.userId ensures ownerName == u.name {
              KeysFreshUnique(db.users, UserId, db.nextId, u, GetUserDoc(db, info.userId).value);
            }
          }
        }
        Some(PublicShare(info.tagName, shared, ownerName))
  }

  /** The public page and the owner's own tag view list the same bookmarks,
      each once: the owner sees them newest first, the public page in
      insertion order. An empty tag name is no filter in the owner's view,
      so it is excluded. */
  lemma {:induction false} PublicShareIsOwnerView(db: Db, shareId: string, i: int, ownerAuth: Option<Identity>)
    ensures (&& FirstShare(db.sharedTags, shareId, i)
             && db.sharedTags[i].isPublic && db.sharedTags[i].tagName != ""
             && Caller(db, ownerAuth).Ok? && Caller(db, ownerAuth).value.id == db.sharedTags[i].userId) ==>
              Seqs.Reverse(GetPublicBookmarksByShareId(db, shareId).value.bookmarks)
              == Bookmarks.GetFilteredBookmarks(db, ownerAuth, Some(db.sharedTags[i].tagName)).value
  {
    if && FirstShare(db.sharedTags, shareId, i)
       && db.sharedTags[i].isPublic && db.sharedTags[i].tagName != ""
       && Caller(db, ownerAuth).Ok? && Caller(db, ownerAuth).value.id == db.sharedTags[i].userId {
      var s := db.sharedTags[i];
      var p := Bookmarks.Tagged(s.tagName);
      var owned := Bookmarks.Owned(db.bookmarks, s.userId);
      var fi := Seqs.FirstIndex(db.sharedTags, (t: SharedTag) => t.shareId == shareId);
      assert fi == Some(i);
      assert GetPublicBookmarksByShareId(db, shareId).value.bookmarks == Seqs.Filter(owned, p);
      assert Bookmarks.GetBookmarks(db, ownerAuth).value == Seqs.Reverse(owned);
      assert Bookmarks.GetFilteredBookmarks(db, ownerAuth, Some(s.tagName)).value
             == Seqs.Filter(Seqs.Reverse(owned), p);
      Seqs.FilterReverse(owned, p);
    }
  }

  /** Sharing a tag that is not yet shared publishes it under the fresh id,
      readable publicly when no other entry already uses that id. */
  lemma NewShareIsPublic(db: Db, auth: Option<Identity>, tagName: string, shareId: string)
    requires IsShareId(shareId)
    requires ShareTag(db, auth, tagName, shareId).Ok?
    requires !IsTagShared(db, auth, tagName)
    requires forall s :: s in db.sharedTags ==> s.shareId != shareId
    ensures var (db', id) := ShareTag(db, auth, tagName, shareId).value;
            id == shareId
            && GetPublicBookmarksByShareId(db', id).Some?
            && GetPublicBookmarksByShareId(db', id).value.tagName == tagName
  {
    var (db', id) := ShareTag(db, auth, tagName, shareId).value;
    var uid := Caller(db, auth).value.id;
    var n := |db.sharedTags|;
    assert db'.sharedTags[n].shareId == shareId;
    assert forall j :: 0 <= j < n ==> db'.sharedTags[j] == db.sharedTags[j];
    assert forall j :: 0 <= j < n ==> db.sharedTags[j] in db.sharedTags;
  }

  /** `getMyAllTags`: the sorted, duplicate-free tags of the caller's
      bookmarks; empty when signed out or without a user row. It is the
      same list the HTTP tag endpoint computes for that user. */
  function GetMyAllTags(db: Db, auth: Option<Identity>): (r: seq<string>)
    ensures Caller(db, auth).Err? ==> r == []
    ensures Ordering.StrictlySorted(r)
    ensures Caller(db, auth).Ok? ==>
              forall t :: t in r <==> exists b :: b in db.bookmarks && b.userId == Caller(db, auth).value.id && t in b.tags
  {
    match Caller(db, auth)
    case Err(_) => []
    case Ok(user) => Ordering.SortedSet(Bookmarks.AllTags(Bookmarks.Owned(db.bookmarks, user.id)))
  }

  /** The in-app tag list and the HTTP tag list agree for the same user. */
  lemma MyTagsAreUniqueTags(db: Db, auth: Option<Identity>)
    requires Caller(db, auth).Ok?
    ensures GetMyAllTags(db, auth) == Bookmarks.GetAllUniqueTagsForUser(db, Caller(db, auth).value.id)
  {
    Bookmarks.UniqueTagsCanonical(db, Caller(db, auth).value.id, GetMyAllTags(db, auth));
  }
}

=== FILE: users.dfy ===
/** The `users` table operations: the current-user query, the internal
    insert, the profile patch, and the look-up-or-create preamble the
    bookmark and API-key mutations share. */
module Users {
  import opened Options
  import opened Store

  /** `getCurrentUser`: the caller's row, or null when signed out or when no
      row carries the caller's subject. */
  function GetCurrentUser(db: Db, auth: Option<Identity>): (r: Option<User>)
    ensures auth.None? ==> r.None?
    ensures r.Some? ==> auth.Some? && r.value in db.users && r.value.tokenIdentifier == auth.value.subject
    ensures (auth.Some? && r.None?) ==> forall u :: u in db.users ==> u.tokenIdentifier != auth.value.subject
  {
    match Caller(db, auth)
    case Ok(user) => Some(user)
    case Err(_) => None
  }

  /** `createConvexUser`: insert one row and return its id. Nothing prevents
      a second row with the same subject. */
  function CreateConvexUser(db: Db, clerkUserId: string, email: Option<string>, name: Option<string>,
                            pictureUrl: Option<string>): (r: (Db, Id))
    ensures r.0.users == db.users + [User(r.1, clerkUserId, email, name, pictureUrl)]
    ensures r.0.bookmarks == db.bookmarks && r.0.apiKeys == db.apiKeys && r.0.sharedTags == db.sharedTags
    ensures Wf(db) ==> Wf(r.0) && forall u :: u in db.users ==> u.id != r.1
    ensures r.1 < r.0.nextId
  {
    var id := db.nextId;
    var db' := db.(users := db.users + [User(id, clerkUserId, email, name, pictureUrl)], nextId := id + 1);
    assert Wf(db) ==> Wf(db') by {
      if Wf(db) {
        KeysFreshAppend(db.users, UserId, db.nextId, User(id, clerkUserId, email, name, pictureUrl));
        KeysFreshGrow(db.bookmarks, BookmarkId, db.nextId, db'.nextId);
        KeysFreshGrow(db.apiKeys, ApiKeyId, db.nextId, db'.nextId);
        KeysFreshGrow(db.sharedTags, SharedTagId, db.nextId, db'.nextId);
      }
    }
    (db', id)
  }

  /** A freshly created user is what a later look-up of its subject finds,
      provided no earlier row carried that subject. */
  lemma CreatedUserIsFound(db: Db, clerkUserId: string, email: Option<string>, name: Option<string>,
                           pictureUrl: Option<string>)
    requires FindUser(db, clerkUserId).None?
    ensures var (db', id) := CreateConvexUser(db, clerkUserId, email, name, pictureUrl);
            FindUser(db', clerkUserId) == Some(User(id, clerkUserId, email, name, pictureUrl))
  {
    var (db', id) := CreateConvexUser(db, clerkUserId, email, name, pictureUrl);
    var f := FindUser(db', clerkUserId);
    assert f.Some?;
    assert forall j :: 0 <= j < |db.users| ==> db'.users[j] == db.users[j];
  }

  /** The result of `updateUserProfile`. */
  function PatchProfile(u: User, name: Option<string>, email: Option<string>, pictureUrl: Option<string>): User {
    u.(name := name, email := email, pictureUrl := pictureUrl)
  }

  /** `updateUserProfile`: overwrite the caller's three profile fields with
      the supplied values, absent ones included (an absent value removes
      the field). */
  function UpdateUserProfile(db: Db, auth: Option<Identity>, name: Option<string>, email: Option<string>,
                             pictureUrl: Option<string>): (r: Result<Db>)
    ensures auth.None? ==> r == Err(NotAuthenticated)
    ensures (auth.Some? && FindUser(db, auth.value.subject).None?) ==> r == Err(UserNotFound)
    ensures r.Ok? <==> Caller(db, auth).Ok?
    ensures r.Ok? ==> |r.value.users| == |db.users|
    ensures r.Ok? ==> forall i :: 0 <= i < |db.users| ==>
              && r.value.users[i].id == db.users[i].id
              && r.value.users[i].tokenIdentifier == db.users[i].tokenIdentifier
              && (db.users[i].id == Caller(db, auth).value.id ==>
                    (r.value.users[i].name, r.value.users[i].email, r.value.users[i].pictureUrl) == (name, email, pictureUrl))
              && (db.users[i].id != Caller(db, auth).value.id ==> r.value.users[i] == db.users[i])
    ensures r.Ok? ==> r.value.(users := db.users) == db
  {
    match Caller(db, auth)
    case Err(e) => Err(e)
    case Ok(user) =>
      var users := seq(|db.users|, i requires 0 <= i < |db.users| =>
        if db.users[i].id == user.id then PatchProfile(db.users[i], name, email, pictureUrl) else db.users[i]);
      Ok(db.(users := users))
  }

  /** The patch is a round trip: reading the caller afterwards gives the
      stored row with exactly the supplied profile. */
  lemma UpdateThenRead(db: Db, auth: Option<Identity>, name: Option<string>, email: Option<string>,
                       pictureUrl: Option<string>)
    requires UpdateUserProfile(db, auth, name, email, pictureUrl).Ok?
    ensures var db' := UpdateUserProfile(db, auth, name, email, pictureUrl).value;
            GetCurrentUser(db', auth) == Some(PatchProfile(Caller(db, auth).value, name, email, pictureUrl))
  {
    var db' := UpdateUserProfile(db, auth, name, email, pictureUrl).value;
    var subject := auth.value.subject;
    var user := Caller(db, auth).value;
    var i :| 0 <= i < |db.users| && db.users[i] == user
             && forall j :: 0 <= j < i ==> db.users[j].tokenIdentifier != subject;
    var f := FindUser(db', subject);
    assert db'.users[i].tokenIdentifier == subject;
    assert f.Some?;
    var k :| 0 <= k < |db'.users| && db'.users[k] == f.value
             && forall j :: 0 <= j < k ==> db'.users[j].tokenIdentifier != subject;
    assert k == i;
  }

  /** The look-up-or-create preamble of `createBookmark` and
      `generateApiKey`: the caller's row, created from the identity (with
      empty strings dropped) when missing. */
  function EnsureUser(db: Db, identity: Identity): (r: (Db, User))
    ensures FindUser(r.0, identity.subject) == Some(r.1)
    ensures r.1.tokenIdentifier == identity.subject && r.1 in r.0.users
    ensures FindUser(db, identity.subject).Some? ==> r == (db, FindUser(db, identity.subject).value)
    ensures FindUser(db, identity.subject).None? ==>
              && r.1 == User(db.nextId, identity.subject, NonEmpty(identity.email), NonEmpty(identity.name),
                             NonEmpty(identity.pictureUrl))
              && r.0.users == db.users + [r.1]
    ensures r.0.bookmarks == db.bookmarks && r.0.apiKeys == db.apiKeys && r.0.sharedTags == db.sharedTags
    ensures Wf(db) ==> Wf(r.0) && r.1.id < r.0.nextId
    ensures db.nextId <= r.0.nextId
  {
    match FindUser(db, identity.subject)
    case Some(user) =>
      assert Wf(db) ==> user.id < db.nextId;
      (db, user)
    case None =>
      var email, name, pictureUrl := NonEmpty(identity.email), NonEmpty(identity.name), NonEmpty(identity.pictureUrl);
      var (db', id) := CreateConvexUser(db, identity.subject, email, name, pictureUrl);
      CreatedUserIsFound(db, identity.subject, email, name, pictureUrl);
      (db', User(id, identity.subject, email, name, pictureUrl))
  }
}
